=== FILE: README.md ===
# Tab and window bookkeeping of sante-cs-tabs, in Dafny

The sante-cs-tabs browser extension keeps a call-center application's
customer tabs in step with their action tabs. The action tabs live in a
secondary "action window". This project models the extension's background
bookkeeping as a sequential state machine. The pieces are:

- the `TabMap` registry;
- the `Customer` and `Action` objects;
- the `ActionWindow` singleton;
- the id and path helpers and the event handlers of `background.ts`.

Each handler is one atomic transition. It maps the background state to a new
state plus the list of native commands it issues: activate a tab, focus,
minimize or maximize a window, remove tabs, create a tab or window, or send a
message to a page.

Files, one module each:

- `wrappers.dfy` (`Wrappers`): `Option`.
- `types.dfy` (`Types`): customers, actions, registry keys and values, commands, messages, JavaScript truthiness.
- `ordered_map.dfy` (`OrderedMap`): a JavaScript `Map`, with insertion order. Both the registry and a customer's `_actions` are one.
- `ids.dfy` (`Ids`): `split`/`join`, `parseId`, the `customerId:actionId` name, `startsWith`.
- `tab_map.dfy` (`TabMap`): `set`, `getAction`, `getCustomer`, `delete`, `keys`, `actions`, `customers`, `dump`.
- `action.dfy` (`ActionModel`): the `Action` constructor, `focus`, `close`.
- `action_window.dfy` (`ActionWindow`): `id`, `getCurrent`, `minimize`, `open`, `clear`.
- `customer.dfy` (`CustomerModel`): `register`, `deregister`, `close`, `focus`, `open`.
- `background.dfy` (`Background`): the six listeners, the state invariant, and a worked scenario.

Modelling choices:

- **Object identity.** A `Customer` or `Action` object is its identity (`ref`) plus its read-only fields. The mutable parts sit in heap tables keyed by `ref`: a customer's `_actions` and an action's `metadata`. This matters because `set` can leave a stale string key on an orphaned `Customer` object, and that object has its own `_actions`. Each `new` takes the next unused identity, `next`. The state invariant records that every action object, in the registry or in a table, has an identity below `next`. So a new action's identity is one no existing action has, and resetting its `metadata` entry to undefined (the constructor leaves the field unset) touches no existing action (`Background.CreationKeepsExistingMetadata`).
- **Insertion order.** Iteration order is modelled, because the source depends on it. `focus` picks the first key. `close` removes tabs in table order. `keys`, `actions`, `customers` and `dump` follow registry order. Their contracts state which elements are listed; the order itself is carried by their definitions, which walk the registry front to back. `actions.find` returns the first match.
- **JavaScript truthiness is explicit.** An empty string, a tab id of 0 and a window id of 0 are false where the source tests them: `if (!this.id)`, `tid && ...`, `if (aid)`, `currentTab || -1`, `!url || !aid`, `if (!data.id)`.
- **Browser answers are parameters.** Anything a handler learns from the browser is passed in: the window of a tab, the active tab of a window, the tab or window just created, and the screen size. The URL filter built from the manifest is a parameter `matches: string -> bool`. The path and the `CustomerId`/`ActionId` query parameters are inputs.
- **Quirks of the source the model keeps.**
  - `parseId` splits on every `:` and keeps the first two parts, so `"a:b:c"` gives action id `b` and drops `c` (`Ids.ParseDropsTail`).
  - Actions are registered under their bare action id, not `customerId:actionId`. Customer ids and action ids therefore share one namespace (`Background.ActionIdShadowsCustomer`). `spe:close` of `cid:aid` also looks the action up by the bare `aid`. When that finds an action outside `cid`'s table (another customer registered the same action id last, say), the request is not narrowed and closes the whole customer: its own tab and every action tab (`Background.CloseForeignActionClosesCustomer`).
  - `Action.focus` activates the action's tab. It does not focus the action's window.
  - `Customer.focus` does not check whether the window's current tab belongs to any action.
  - `Customer.open` does not add the new action to the registry.
  - `set` is last-write-wins and can leave a stale key. So the registry invariant is "every key names its value" (its `id` or its `tab`), not a two-keys-per-entity bijection.

## Model

| member | source | states |
|---|---|---|
| OrderedMap.Get | src/utils/tab-map.ts:57-59 | `get(k)` is defined exactly when `has(k)` holds |
| OrderedMap.Set | src/utils/tab-map.ts:43-44 | after `Map.set(k, v)`, `k` gives `v` and no other key changes; a new key goes last and a present key keeps its position; distinct keys stay distinct |
| OrderedMap.Remove | src/utils/tab-map.ts:52-53 | after `Map.delete(k)`, `k` is absent, no other key changes and the remaining keys keep their insertion order; deleting an absent key changes nothing |
| TabMap.Set | src/utils/tab-map.ts:42-46 | both the string id and the tab id give the value; every other key is unchanged; earlier values are overwritten silently |
| TabMap.SetKeepsKeysMatch | src/background.ts:39 | `set(v.id, v.tab, v)`, as both call sites use it, keeps every key naming a value whose id or tab is that key |
| TabMap.GetAction | src/utils/tab-map.ts:32-35 | defined exactly when the value under the key is an Action, and then it is that Action |
| TabMap.GetCustomer | src/utils/tab-map.ts:37-40 | defined exactly when the value under the key is a Customer, and then `getAction` of the same key is undefined |
| TabMap.Delete | src/utils/tab-map.ts:48-55 | deleting a present key removes exactly the value's id key and tab key and keeps every other key; an absent key is a no-op |
| TabMap.DeleteIdempotent | src/utils/tab-map.ts:49-50 | a second `delete` of the same key changes nothing, in any registry |
| TabMap.DeleteKeepsKeysMatch | src/utils/tab-map.ts:48-53 | `delete` keeps every key naming its value |
| TabMap.DeleteRemovesBothKeys | src/utils/tab-map.ts:52-53 | when every key names its value, deleting either key of a value leaves neither key present |
| TabMap.Keys | src/utils/tab-map.ts:11-14 | `keys` lists exactly the numeric keys of the registry |
| TabMap.Actions | src/utils/tab-map.ts:16-20 | `actions` lists exactly the Actions stored under some tab key; how many there are, and which ones under keys that name their values, is stated by `TabMap.ActionsCustomersPartition` |
| TabMap.Customers | src/utils/tab-map.ts:22-26 | `customers` lists exactly the Customers stored under some tab key; its size and its members under matching keys are stated by `TabMap.ActionsCustomersPartition` |
| TabMap.KindsPartition | src/utils/tab-map.ts:16-26 | the Action filter and the Customer filter together keep every value once |
| TabMap.ActionsCustomersPartition | src/utils/tab-map.ts:16-26 | `actions` and `customers` have one element per tab key between them; when keys name their values, an action or customer is listed exactly when its own tab id holds it |
| TabMap.DumpCustomer | src/utils/tab-map.ts:65-75 | a dump entry carries the customer's id and tab, and the id, window and tab of each of its actions, in table order |
| TabMap.Dump | src/utils/tab-map.ts:61-76 | `dump` has one entry per customer under a tab key, in registry order, each built from that customer's own action table |
| ActionModel.New | src/models/action.ts:12-17 | the constructor stores id, customer, window and tab as given |
| ActionModel.Focus | src/models/action.ts:19-22 | `focus` activates the customer's tab and then the action's own tab |
| ActionModel.Close | src/models/action.ts:24-27 | `close(md)` sets this action's metadata to `md`, leaves every other action's metadata alone, and removes exactly its own tab |
| ActionWindow.GetCurrent | src/models/action-window.ts:10-16 | nothing when no window id is held; otherwise the window's active tab as reported |
| ActionWindow.Minimize | src/models/action-window.ts:18-22 | a no-op without a window id; otherwise one minimize request for the held window |
| ActionWindow.Open | src/models/action-window.ts:24-44 | with a window held: a tab in that window, focus on the tab's window, state unchanged; without: a window at left = screen width with width twice the screen width and the screen's height, then held and maximized |
| ActionWindow.Clear | src/models/action-window.ts:46-48 | after `clear` no window is held and `id` is undefined |
| ActionWindow.OpenTwiceCreatesOneWindow | src/models/action-window.ts:26-38 | two `open`s in a row create at most one window (none if one is held), and the second opens its tab in the window the first left |
| ActionWindow.OpenedWindowIsManaged | src/models/action-window.ts:6-38 | the window `open` creates is held and is the one `minimize` and `getCurrent` then act on; a window the browser numbers 0 is held but never minimized, and `getCurrent` reports nothing for it |
| ActionWindow.ClearedWindowIsInert | src/models/action-window.ts:10-48 | after `clear`, `minimize` does nothing and `getCurrent` reports nothing |
| ActionWindow.ClearThenOpenCreatesWindow | src/models/action-window.ts:35-48 | after `clear`, `open` creates and holds a fresh window |
| CustomerModel.Register | src/models/customer.ts:28-32 | `register(aid, wid, tid)` yields a new Action (aid, this customer, wid, tid) with metadata undefined, stored under `tid`; an action already at `tid` is replaced in place; no other entry changes; the table invariant is kept |
| CustomerModel.Deregister | src/models/customer.ts:38-41 | without an action at `tid` it is a no-op; in a table keyed by tab it removes exactly `tid` |
| CustomerModel.DeregisterIdempotent | src/models/customer.ts:38-41 | a second `deregister` of the same tab changes nothing, in any table |
| CustomerModel.Target | src/models/customer.ts:50 | `tid && this._actions.get(tid)` is defined exactly when `tid` is a non-zero tab this customer holds an action under, and then it is that action |
| CustomerModel.Close | src/models/customer.ts:49-58 | an owned `tid`: only that action's metadata is set and only its tab is removed; otherwise every owned action gets `md` and one request removes the N action tabs in table order, then the customer tab |
| CustomerModel.Focus | src/models/customer.ts:64-87 | no window id: nothing; no actions: one minimize; otherwise focus the current tab's window, switch to the first-registered action when the current tab is not owned, and end on the customer's own tab |
| CustomerModel.FocusSwitchesToOwnAction | src/models/customer.ts:80-83 | when `focus` switches tabs, the tab it activates holds this customer's first-registered action |
| CustomerModel.Find | src/models/customer.ts:103 | `actions.find` returns the first action with the given id, or nothing when none has it |
| CustomerModel.Open | src/models/customer.ts:95-112 | a falsy url or aid only activates the customer tab; an existing action id activates the first action with that id, in table order, and returns it; otherwise the action window opens the url and the new tab becomes a new action of this customer, with metadata undefined |
| Ids.ParseId | src/background.ts:182-185 | `cid` never holds ':'; `aid` is undefined exactly when the id has no ':'; otherwise `cid:aid` is a prefix of the id |
| Ids.JoinSplit | src/background.ts:183 | joining the parts of `split(':')` gives back the string |
| Ids.SplitJoin | src/background.ts:183 | splitting a join of ':'-free parts gives back the parts |
| Ids.ParseActionKey | src/background.ts:124 | parsing `${cid}:${aid}` for ':'-free ids gives back `{cid, aid}` |
| Ids.ParseCustomerId | src/background.ts:182-185 | parsing a ':'-free customer id gives that id with `aid` undefined |
| Ids.ParseDropsTail | src/background.ts:183-184 | text after a second ':' is dropped from the action id |
| Ids.StartsWith | src/background.ts:178-180 | `startsWith(text, options)` holds exactly when some option is a prefix of `text` |
| Background.PathsDisjoint | src/background.ts:33-47 | no path is both a customer page and an action page |
| Background.OnUpdated | src/background.ts:19-57 | an unmatched or missing URL, or a page of neither kind, changes nothing; no command is issued; no metadata changes except that of the newly created action |
| Background.NavigateToCustomerPage | src/background.ts:37-40 | a customer page registers the new Customer(cid, tid) under both `cid` and `tid`, overwriting, with an empty action table; no other key changes |
| Background.NavigateToActionPage | src/background.ts:47-55 | with no customer under `cid` nothing changes; otherwise the new action, with metadata undefined, is in the customer's table under `tid` and in the registry under the bare `aid` and `tid`; no other key changes |
| Background.ActionIdShadowsCustomer | src/background.ts:55 | registering an action under its bare id hides any customer with that id from `getCustomer` |
| Background.OnActivated | src/background.ts:63-79 | an unknown tab issues nothing; a customer is focused; an action is focused and then its customer's page gets `select {actionId: customer id, taskId: action id}`; the state never changes |
| Background.ActivateActionTab | src/background.ts:63-78 | activating a registered action's tab activates its customer's tab, then that tab itself, then sends `select {customer id, action id}` to the customer's page |
| Background.NavigateThenActivate | src/background.ts:47-78 | a tab that navigated to an action page of a registered customer, once activated, brings that customer's tab forward, then itself, and reports the URL's action id as selected |
| Background.OnFocusChanged | src/background.ts:85-92 | a negative window id, or no active tab, issues nothing; otherwise only a customer shown in that window is focused; the state never changes |
| Background.CloseEach | src/background.ts:107 | closing a customer's actions one by one removes each action tab in turn and leaves each action's metadata undefined |
| Background.CurrentAction | src/background.ts:115-116 | the action under the action window's reported active tab, looked up under -1 when no window id is held, nothing is reported, or the tab id is 0 |
| Background.ClosedData | src/background.ts:124-128 | the `closed` payload has every metadata field except `id`, and `id` is the action's `customerId:actionId` |
| Background.DeregisterFrom | src/background.ts:101-102 | a removed action's tab leaves its customer's table, the rest of that table and every other customer's table unchanged, and every table stays well formed |
| Background.OnRemoved | src/background.ts:97-130 | an unknown tab changes nothing; otherwise the tab's registry entry is deleted and the window and allocation are untouched |
| Background.RemoveActionTab | src/background.ts:101-129 | a removed action leaves its customer's table and both registry keys; the window is minimized exactly when it now shows another customer's action; then `customerId:actionId` and the stored metadata go to the customer's page |
| Background.RemoveCustomerTab | src/background.ts:105-111 | a removed customer first closes each owned action (one removal per tab, metadata undefined), leaves the tables alone, changes no other action's metadata, and loses both registry keys |
| Background.NewActionClosesWithIdOnly | src/models/action.ts:10-17 | an action created by navigation starts without metadata, whatever the state held before, so closing its tab sends its customer's page only `{id: "customerId:actionId"}` |
| Background.CreationKeepsExistingMetadata | src/models/action.ts:10-17 | creating an action by navigation or by `spe:open` leaves the metadata of every action the state already holds, registered or in a table, unchanged: such an action's identity is below `next` |
| Background.WindowRemovedThenOpen | src/background.ts:135-150 | once the held window is removed, `minimize` does nothing and the next id-less `open` creates and holds a fresh window |
| Background.OnWindowRemoved | src/background.ts:135-138 | the action window is cleared exactly when the removed window is the held one |
| Background.OnOpen | src/background.ts:147-160 | the registry is never changed; without an id the url goes straight to `ActionWindow.open`; an unknown customer changes nothing; no metadata changes except that of a newly created action |
| Background.OnClose | src/background.ts:161-170 | only action metadata can change; a missing id or unknown customer changes nothing |
| Background.CloseUnknownActionClosesCustomer | src/background.ts:161-167 | a close request whose action id is not registered closes the whole customer, its own tab and every action tab, and gives each action the request's metadata |
| Background.CloseOwnActionClosesOnlyIt | src/background.ts:160-167 | `spe:close` of `cid:aid`, when the action under the bare `aid` has a non-zero tab held in `cid`'s table: the single command removes that tab alone, and only the metadata of the action stored there changes |
| Background.CloseForeignActionClosesCustomer | src/background.ts:160-167 | `spe:close` of `cid:aid`, when the action under the bare `aid` is not in `cid`'s table: one request removes every action tab of `cid` in table order and then `cid`'s own tab, and every one of its actions gets the request's metadata |
| Background.OnMessage | src/background.ts:143-175 | `ping` and unknown request types change nothing and issue nothing |
| Background.HandleKeepsInv | src/background.ts:19-175 | every handler keeps the invariant: distinct registry keys, each naming its value; well-formed tables keyed by tab and owned by their customer; each value's customer has a table; an action under its tab is still in its customer's table; every action object's identity is below the next one to be allocated |
| Background.CustomerThenActionInOneTab | src/background.ts:37-129 | customer 42 in tab 10, then action 7 in the same tab, then the tab closes: the action sits under "7" and 10 while "42" keeps the customer; afterwards it is gone from the table and the page hears `{id: "42:7"}` |

## Left out

- `src/content.ts` relays DOM events and injects scripts into the page. It has no state, so it is not part of this model.
- `rollup.config.js` and `config/web-ext.config.js` are build and packaging configuration.
- `src/models/data-dump.ts` has only type declarations. Its field shape is reused by `TabMap.ActionDump` and `TabMap.CustomerDump`.
- The regular expressions built from `manifest.json` (`src/background.ts:21-25`) are not modelled. `manifest.json` is not part of this model, so the filter is the parameter `matches`.
- The parsing in `new URL(...)` and `searchParams` is not modelled. The path and the two query parameters are inputs.
- The 200 ms settle delay before minimizing is left out: timing is not modelled.
- Interleaving between handlers at `await` points is left out, including races between concurrent `ActionWindow.open` calls. Each handler is one atomic step, so its commands are listed in statement order. The async issue order can differ: an action's `select` message can go out before `focus`'s second activation.
- Console logging and `dump`'s console output are left out.
- Exceptions on missing values are modelled as the handler stopping, with the state changes made so far. This covers dereferencing an undefined `getCurrent()` result in `Customer.focus` and `parseId(undefined)`. A reported tab always carries an id, and `ActionWindow.Open` assumes the browser always reports a tab.
- Every native call is assumed to succeed. The source's handlers stop at a rejected promise, and the model does not follow that path. Two places where this matters:
  - `await action.close()` in the loop at `src/background.ts:107` rejects when an action's tab is already gone. The handler then stops before `tabs.delete(tid)` at line 111, so the customer stays registered. The model always deletes. The tab can already be gone: an action tab that navigated to a customer page is no longer found by `getAction`, so closing it never deregisters the old action.
  - A rejected `browser.tabs.get(tid)` at `src/background.ts:52` registers nothing. The model always registers the action, with the window passed in.
- A request without a `data` object throws in the source. The model's requests always carry their fields, each of which may be undefined.
- Background.OnOpen: its contract covers the no-id and unknown-customer cases and what never changes. The registered-customer case is `CustomerModel.Open`, stated there.
- Background.OnClose: its contract covers the missing-id and unknown-customer cases and what never changes. The bare-`aid` lookup that decides narrowing is stated by `Background.CloseOwnActionClosesOnlyIt` (narrowed), `Background.CloseForeignActionClosesCustomer` (found, but not in the customer's table) and `Background.CloseUnknownActionClosesCustomer` (not registered).
- Metadata, typed `any` in the source, is modelled as a record of string fields.
- Background.OnRemoved: its contract states the registry result and the no-op case. The per-kind effects are stated by `Background.RemoveActionTab` and `Background.RemoveCustomerTab`.
- Background.OnMessage: its own contract covers only `ping` and unknown types. `open` and `close` are stated by `Background.OnOpen` and `Background.OnClose`.

=== FILE: action.dfy ===
/**
 * `Action`: one tab of the action window. Its `id`, `customer`, `window` and
 * `tab` are read-only (the datatype is immutable); `metadata` is the one
 * mutable field and lives in a `MetaTable` keyed by the action's identity.
 */
module ActionModel {
  import opened Wrappers
  import opened Types

  /** The `metadata` field of every action object, by identity; a missing entry is undefined. */
  type MetaTable = map<nat, Option<Metadata>>

  /** `action.metadata`. */
  function MetaOf(meta: MetaTable, ref: nat): Option<Metadata> {
    if ref in meta then meta[ref] else None
  }

  /** `new Action(id, customer, wid, tid)`: every field is stored as given. */
  function New(ref: nat, id: string, customer: Customer, wid: WindowId, tid: TabId): (a: Action)
    ensures a.ref == ref && a.id == id && a.customer == customer
    ensures a.window == wid && a.tab == tid
  {
    Action(ref, id, customer, wid, tid)
  }

  /** `action.focus()`: activate the owning customer's tab, then this action's tab. */
  function Focus(a: Action): (cmds: seq<Command>)
    ensures |cmds| == 2
    ensures cmds[0] == Activate(a.customer.tab) && cmds[1] == Activate(a.tab)
  {
    [Activate(a.customer.tab), Activate(a.tab)]
  }

  datatype Closing = Closing(meta: MetaTable, cmds: seq<Command>)

  /**
   * `action.close(md)`: store `md` as this action's metadata (no other
   * action's changes), then request removal of exactly this action's tab.
   * Neither the registry nor the customer's table is touched.
   */
  function Close(a: Action, md: Option<Metadata>, meta: MetaTable): (r: Closing)
    ensures MetaOf(r.meta, a.ref) == md
    ensures forall ref :: ref != a.ref ==> MetaOf(r.meta, ref) == MetaOf(meta, ref)
    ensures r.cmds == [RemoveTabs([a.tab])]
  {
    Closing(meta[a.ref := md], [RemoveTabs([a.tab])])
  }
}

=== FILE: action_window.dfy ===
/**
 * `ActionWindow`: the one secondary window every action tab opens in. The
 * state is the held window (its id) or nothing.
 *
 * `id` is `this._window && this._window.id`; the guards `if (!this.id)` treat
 * a window id of 0 like no window, while `open` tests the window object
 * itself, so there a held window with id 0 still counts.
 */
module ActionWindow {
  import opened Wrappers
  import opened Types

  type State = Option<WindowId>

  /** `!!ActionWindow.id`. */
  predicate HasId(s: State) {
    NonZero(s)
  }

  /** The primary screen's size (`window.screen`). */
  datatype Screen = Screen(width: int, height: int)

  /**
   * `getCurrent()`: nothing when `id` is falsy, otherwise the first active tab
   * the browser reports for the window (`active`, a query result).
   */
  function GetCurrent(s: State, active: Option<Tab>): (r: Option<Tab>)
    ensures !HasId(s) ==> r.None?
    ensures HasId(s) ==> r == active
  {
    if !HasId(s) then None else active
  }

  /**
   * `minimize()`: nothing when `id` is falsy, otherwise a request to minimize
   * the held window (after the settle delay).
   */
  function Minimize(s: State): (cmds: seq<Command>)
    ensures !HasId(s) ==> cmds == []
    ensures HasId(s) ==> cmds == [MinimizeWindow(s.value)]
  {
    if !HasId(s) then [] else [MinimizeWindow(s.value)]
  }

  /** The tab `open` resolves to, the state after it, and the native calls it made. */
  datatype Opened = Opened(state: State, tab: Tab, cmds: seq<Command>)

  /**
   * `open(url)`. With a held window: create the tab in it, focus the new
   * tab's window, keep the state. Without: create a window one screen-width
   * to the right, twice as wide and as tall as the screen, hold it, maximize it.
   * `created` is the browser's answer: the new tab, or the first tab of the
   * new window; `newWindow` is the id of a window the browser creates.
   */
  function Open(s: State, url: Option<string>, screen: Screen, newWindow: WindowId, created: Tab): (r: Opened)
    ensures r.tab == created
    ensures s.Some? ==> r.state == s
    ensures s.Some? ==> r.cmds == [CreateTab(url, s.value), FocusWindow(created.windowId)]
    ensures s.None? ==> r.state == Some(newWindow)
    ensures s.None? ==> |r.cmds| == 2 && r.cmds[1] == MaximizeWindow(newWindow)
    ensures s.None? ==> r.cmds[0] == CreateWindow(url, screen.width, 2 * screen.width, screen.height)
  {
    if s.Some? then
      Opened(s, created, [CreateTab(url, s.value), FocusWindow(created.windowId)])
    else
      var placement := CreateWindow(url, screen.width, screen.width * 2, screen.height);
      Opened(Some(newWindow), created, [placement, MaximizeWindow(newWindow)])
  }

  /** `clear()`: forget the window; `id` is undefined afterwards. */
  function Clear(s: State): (r: State)
    ensures r.None? && !HasId(r)
  {
    None
  }

  /** How many of the commands create a window. */
  function WindowsCreated(cmds: seq<Command>): nat {
    if cmds == [] then 0
    else (if cmds[0].CreateWindow? then 1 else 0) + WindowsCreated(cmds[1..])
  }

  /** Two commands create as many windows as each creates on its own. */
  lemma WindowsCreatedPair(x: Command, y: Command)
    ensures WindowsCreated([x, y]) == (if x.CreateWindow? then 1 else 0) + (if y.CreateWindow? then 1 else 0)
  {
    assert [x, y][1..] == [y];
    assert [y][1..] == [];
    assert WindowsCreated([y]) == (if y.CreateWindow? then 1 else 0) + WindowsCreated([]);
  }

  /** The windows two command lists create add up over their concatenation. */
  lemma {:induction false} WindowsCreatedAppend(a: seq<Command>, b: seq<Command>)
    ensures WindowsCreated(a + b) == WindowsCreated(a) + WindowsCreated(b)
  {
    if a == [] {
      assert a + b == b;
    } else {
      assert (a + b)[1..] == a[1..] + b;
      WindowsCreatedAppend(a[1..], b);
    }
  }

  /**
   * Two `open`s in a row create at most one window, and none when one is
   * held; the second opens its tab in the window the first left behind.
   */
  lemma OpenTwiceCreatesOneWindow(s: State, u1: Option<string>, u2: Option<string>, screen: Screen,
                                  w1: WindowId, w2: WindowId, t1: Tab, t2: Tab)
    ensures var o1 := Open(s, u1, screen, w1, t1);
            var o2 := Open(o1.state, u2, screen, w2, t2);
            && WindowsCreated(o1.cmds + o2.cmds) == (if s.None? then 1 else 0)
            && o2.state == o1.state
            && o2.cmds[0] == CreateTab(u2, o1.state.value)
  {
    var o1 := Open(s, u1, screen, w1, t1);
    var o2 := Open(o1.state, u2, screen, w2, t2);
    WindowsCreatedAppend(o1.cmds, o2.cmds);
    WindowsCreatedPair(o1.cmds[0], o1.cmds[1]);
    WindowsCreatedPair(o2.cmds[0], o2.cmds[1]);
  }

  /** After `clear`, the next `open` creates a fresh window and holds it. */
  lemma ClearThenOpenCreatesWindow(s: State, url: Option<string>, screen: Screen, w: WindowId, t: Tab)
    ensures var o := Open(Clear(s), url, screen, w, t);
            o.state == Some(w) && WindowsCreated(o.cmds) == 1
  {
    var o := Open(Clear(s), url, screen, w, t);
    WindowsCreatedPair(o.cmds[0], o.cmds[1]);
  }

  /**
   * The window `open` creates is the one `minimize` and `getCurrent` act on
   * afterwards, unless the browser numbered it 0: the `id` guards read that
   * as no window, so such a window is held but never minimized.
   */
  lemma OpenedWindowIsManaged(url: Option<string>, screen: Screen, w: WindowId, t: Tab, active: Option<Tab>)
    ensures var s := Open(None, url, screen, w, t).state;
            && s == Some(w)
            && (w != 0 ==> Minimize(s) == [MinimizeWindow(w)] && GetCurrent(s, active) == active)
            && (w == 0 ==> Minimize(s) == [] && GetCurrent(s, active) == None)
  {
  }

  /** After `clear`, `minimize` does nothing and `getCurrent` reports nothing. */
  lemma ClearedWindowIsInert(s: State, active: Option<Tab>)
    ensures Minimize(Clear(s)) == [] && GetCurrent(Clear(s), active) == None
  {
  }
}

=== FILE: background.dfy ===
/**
 * The background script's event handlers, each one atomic transition on the
 * background state that also yields the native commands and page
 * notifications it issues. What a handler asks the browser (a tab's window,
 * the active tab of a window, the tab or window it creates) is a parameter.
 */
module Background {
  import opened Wrappers
  import opened Types
  import OM = OrderedMap
  import Ids
  import TabMap
  import ActionModel
  import CustomerModel
  import ActionWindow

  /**
   * The registry, the object heap (every customer's action table, every
   * action's metadata), the action window, and the next fresh object identity.
   */
  datatype State = State(
    tabs: TabMap.Registry,
    tables: CustomerModel.Tables,
    meta: ActionModel.MetaTable,
    window: ActionWindow.State,
    next: nat)

  /** The state when the background page loads. */
  const Init: State := State([], map[], map[], None, 0)

  datatype Step = Step(state: State, cmds: seq<Command>)

  /** The path prefixes of a customer page. */
  const CustomerPaths: seq<string> := ["/CustomerScreenEntry.aspx", "/sante-cs-tabs-test/client"]

  /** The path prefixes of an action page. */
  const ActionPaths: seq<string> := ["/CustomerService/ActionScreen.aspx", "/sante-cs-tabs-test/action"]

  /** No path is both a customer page and an action page. */
  lemma PathsDisjoint(path: string)
    ensures Ids.StartsWith(path, CustomerPaths) ==> !Ids.StartsWith(path, ActionPaths)
  {
    if Ids.StartsWith(path, CustomerPaths) {
      var i :| 0 <= i < |CustomerPaths| && Ids.IsPrefix(CustomerPaths[i], path);
      forall j | 0 <= j < |ActionPaths|
        ensures !Ids.IsPrefix(ActionPaths[j], path)
      {
        var p, q := CustomerPaths[i], ActionPaths[j];
        assert path[..|p|] == p;
        if i == 0 && j == 0 {
          assert path[10] == p[10] == 'c' != q[10];
        } else if i == 1 && j == 1 {
          assert path[20] == p[20] == 'c' != q[20];
        } else {
          assert path[1] == p[1] != q[1];
        }
      }
    }
  }

  // ---------------------------------------------------------------------------
  // tabs.onUpdated

  /**
   * What the handler learns of a navigation: `info.url`, and parsed from it
   * the path and the `CustomerId` and `ActionId` query parameters.
   */
  datatype Navigation = Navigation(url: Option<string>, pathname: string,
                                   customerId: Option<string>, actionId: Option<string>)

  /** `new Customer(cid, tid)` registered under `cid` and `tid`, with a fresh, empty action table. */
  function AddCustomer(s: State, cid: string, tid: TabId): (r: State)
    ensures r.window == s.window && r.meta == s.meta && r.next == s.next + 1
  {
    var c := Customer(s.next, cid, tid);
    s.(tabs := TabMap.Set(s.tabs, c.id, c.tab, CustomerValue(c)),
       tables := s.tables[c.ref := []],
       next := s.next + 1)
  }

  /** `customer.register(aid, wid, tid)`, then the action registered under `aid` and `tid`. */
  function AddAction(s: State, c: Customer, aid: string, wid: WindowId, tid: TabId): (r: State)
    ensures r.window == s.window && r.next == s.next + 1
    ensures ActionModel.MetaOf(r.meta, s.next) == None
    ensures forall ref :: ref != s.next ==> ActionModel.MetaOf(r.meta, ref) == ActionModel.MetaOf(s.meta, ref)
  {
    var reg := CustomerModel.Register(c, CustomerModel.TableOf(s.tables, c), s.meta, s.next, aid, wid, tid);
    s.(tabs := TabMap.Set(s.tabs, reg.action.id, reg.action.tab, ActionValue(reg.action)),
       tables := s.tables[c.ref := reg.table],
       meta := reg.meta,
       next := s.next + 1)
  }

  /** Whether the navigation opens a customer page. */
  predicate IsCustomerPage(nav: Navigation) {
    Truthy(nav.customerId) && Ids.StartsWith(nav.pathname, CustomerPaths)
  }

  /** Whether the navigation opens an action page. */
  predicate IsActionPage(nav: Navigation) {
    Truthy(nav.customerId) && Truthy(nav.actionId) && Ids.StartsWith(nav.pathname, ActionPaths)
  }

  /**
   * `tabs.onUpdated(tid, info)`. `matches` is the extension's URL filter and
   * `tabWindow` the window the browser reports for tab `tid`.
   */
  function OnUpdated(s: State, tid: TabId, nav: Navigation, matches: string -> bool, tabWindow: WindowId): (r: Step)
    ensures r.cmds == [] && r.state.window == s.window
    ensures forall ref :: ref != s.next ==> ActionModel.MetaOf(r.state.meta, ref) == ActionModel.MetaOf(s.meta, ref)
    ensures !Truthy(nav.url) || !matches(nav.url.value) ==> r.state == s
    ensures !IsCustomerPage(nav) && !IsActionPage(nav) ==> r.state == s
  {
    if !Truthy(nav.url) || !matches(nav.url.value) then Step(s, [])
    else
      PathsDisjoint(nav.pathname);
      var s1 := if IsCustomerPage(nav) then AddCustomer(s, nav.customerId.value, tid) else s;
      if IsActionPage(nav) then
        match TabMap.GetCustomer(s1.tabs, StrKey(nav.customerId.value))
        case None => Step(s1, [])
        case Some(c) => Step(AddAction(s1, c, nav.actionId.value, tabWindow, tid), [])
      else Step(s1, [])
  }

  /**
   * A customer-page navigation registers a new Customer `(cid, tid)` under
   * both `cid` and `tid`, replacing whatever they held, with an empty action
   * table; no other key changes.
   */
  lemma NavigateToCustomerPage(s: State, tid: TabId, nav: Navigation, matches: string -> bool, wid: WindowId)
    requires Truthy(nav.url) && matches(nav.url.value) && IsCustomerPage(nav)
    ensures var r := OnUpdated(s, tid, nav, matches, wid).state;
            var c := Customer(s.next, nav.customerId.value, tid);
            && OM.Get(r.tabs, StrKey(nav.customerId.value)) == Some(CustomerValue(c))
            && OM.Get(r.tabs, NumKey(tid)) == Some(CustomerValue(c))
            && (forall k :: k != StrKey(c.id) && k != NumKey(tid) ==> OM.Get(r.tabs, k) == OM.Get(s.tabs, k))
            && CustomerModel.TableOf(r.tables, c) == []
  {
    PathsDisjoint(nav.pathname);
  }

  /**
   * An action-page navigation changes nothing when the customer is not
   * registered under `cid`; otherwise the new Action `(aid, customer,
   * tabWindow, tid)` is in the customer's table under `tid` and in the
   * registry under `aid` and `tid`, and no other key changes.
   */
  lemma NavigateToActionPage(s: State, tid: TabId, nav: Navigation, matches: string -> bool, wid: WindowId)
    requires Truthy(nav.url) && matches(nav.url.value) && IsActionPage(nav)
    ensures var r := OnUpdated(s, tid, nav, matches, wid).state;
            var customer := TabMap.GetCustomer(s.tabs, StrKey(nav.customerId.value));
            && (customer.None? ==> r == s)
            && (customer.Some? ==>
                  var a := Action(s.next, nav.actionId.value, customer.value, wid, tid);
                  && OM.Get(r.tabs, StrKey(a.id)) == Some(ActionValue(a))
                  && OM.Get(r.tabs, NumKey(tid)) == Some(ActionValue(a))
                  && (forall k :: k != StrKey(a.id) && k != NumKey(tid) ==> OM.Get(r.tabs, k) == OM.Get(s.tabs, k))
                  && OM.Get(CustomerModel.TableOf(r.tables, customer.value), tid) == Some(a)
                  && ActionModel.MetaOf(r.meta, a.ref) == None)
  {
    PathsDisjoint(nav.pathname);
  }

  // ---------------------------------------------------------------------------
  // tabs.onActivated and windows.onFocusChanged

  /**
   * `tabs.onActivated(tid)`: focus the registered customer or action; for an
   * action, then tell its customer's page which action is selected.
   * `active` is the action window's active tab (for a customer's `focus`).
   */
  function OnActivated(s: State, tid: TabId, active: Option<Tab>): (r: Step)
    ensures r.state == s
    ensures OM.Get(s.tabs, NumKey(tid)).None? ==> r.cmds == []
    ensures TabMap.GetCustomer(s.tabs, NumKey(tid)).Some? ==>
              var c := TabMap.GetCustomer(s.tabs, NumKey(tid)).value;
              r.cmds == CustomerModel.Focus(c, CustomerModel.TableOf(s.tables, c), s.window, active)
    ensures TabMap.GetAction(s.tabs, NumKey(tid)).Some? ==>
              var a := TabMap.GetAction(s.tabs, NumKey(tid)).value;
              && |r.cmds| == 3
              && r.cmds[..2] == ActionModel.Focus(a)
              && r.cmds[2] == SendMessage(a.customer.tab, Select(a.customer.id, a.id))
  {
    match OM.Get(s.tabs, NumKey(tid))
    case None => Step(s, [])
    case Some(v) =>
      match v
      case CustomerValue(c) =>
        Step(s, CustomerModel.Focus(c, CustomerModel.TableOf(s.tables, c), s.window, active))
      case ActionValue(a) =>
        Step(s, ActionModel.Focus(a) + [SendMessage(a.customer.tab, Select(a.customer.id, a.id))])
  }

  /**
   * Activating a registered action's tab brings its customer's tab forward,
   * then that very tab, and tells the customer's page which action it is.
   */
  lemma ActivateActionTab(s: State, tid: TabId, active: Option<Tab>)
    requires TabMap.KeysMatch(s.tabs)
    requires TabMap.GetAction(s.tabs, NumKey(tid)).Some?
    ensures var a := TabMap.GetAction(s.tabs, NumKey(tid)).value;
            OnActivated(s, tid, active).cmds ==
              [Activate(a.customer.tab), Activate(tid), SendMessage(a.customer.tab, Select(a.customer.id, a.id))]
  {
    var a := TabMap.GetAction(s.tabs, NumKey(tid)).value;
    assert TabMap.Names(NumKey(tid), ActionValue(a));
  }

  /**
   * A tab that navigates to an action page of a registered customer, once
   * activated, brings that customer's tab forward, then itself, and tells the
   * customer's page the selected action is the one in the URL.
   */
  lemma NavigateThenActivate(s: State, tid: TabId, nav: Navigation, matches: string -> bool,
                             wid: WindowId, active: Option<Tab>)
    requires Truthy(nav.url) && matches(nav.url.value) && IsActionPage(nav)
    requires TabMap.GetCustomer(s.tabs, StrKey(nav.customerId.value)).Some?
    ensures var c := TabMap.GetCustomer(s.tabs, StrKey(nav.customerId.value)).value;
            var r := OnUpdated(s, tid, nav, matches, wid).state;
            OnActivated(r, tid, active).cmds ==
              [Activate(c.tab), Activate(tid), SendMessage(c.tab, Select(c.id, nav.actionId.value))]
  {
    NavigateToActionPage(s, tid, nav, matches, wid);
  }

  /**
   * An action registered by navigation starts without metadata, whatever
   * the state held before: when its tab is then removed, the customer's page
   * hears only `{id: "customerId:actionId"}`.
   */
  lemma NewActionClosesWithIdOnly(s: State, tid: TabId, nav: Navigation, matches: string -> bool,
                                  wid: WindowId, active: Option<Tab>)
    requires Inv(s)
    requires Truthy(nav.url) && matches(nav.url.value) && IsActionPage(nav)
    requires TabMap.GetCustomer(s.tabs, StrKey(nav.customerId.value)).Some?
    ensures var c := TabMap.GetCustomer(s.tabs, StrKey(nav.customerId.value)).value;
            var r := OnRemoved(OnUpdated(s, tid, nav, matches, wid).state, tid, active);
            r.cmds[|r.cmds| - 1] ==
              SendMessage(c.tab, Closed(map["id" := Ids.ActionKey(c.id, nav.actionId.value)]))
  {
    var c := TabMap.GetCustomer(s.tabs, StrKey(nav.customerId.value)).value;
    var s1 := OnUpdated(s, tid, nav, matches, wid).state;
    NavigateToActionPage(s, tid, nav, matches, wid);
    OnUpdatedInv(s, tid, nav, matches, wid);
    var a := Action(s.next, nav.actionId.value, c, wid, tid);
    assert TabMap.GetAction(s1.tabs, NumKey(tid)) == Some(a);
    ListedTableKeyedByTab(s1, tid);
    RemoveActionTab(s1, tid, active);
  }

  /** Under the invariant, the table of an action registered under `tid` is keyed by tab. */
  lemma ListedTableKeyedByTab(s: State, tid: TabId)
    requires Inv(s)
    requires TabMap.GetAction(s.tabs, NumKey(tid)).Some?
    ensures CustomerModel.KeyedByTab(CustomerModel.TableOf(s.tables, TabMap.GetAction(s.tabs, NumKey(tid)).value.customer))
  {
    var a := TabMap.GetAction(s.tabs, NumKey(tid)).value;
    assert OM.Get(s.tabs, NumKey(tid)) == Some(ActionValue(a));
    assert OwnerRef(ActionValue(a)) in s.tables;
  }

  /** `a` is an action object the state holds, under a registry key or in a customer's table. */
  ghost predicate Holds(s: State, a: Action) {
    || (exists k :: TabMap.GetAction(s.tabs, k) == Some(a))
    || (exists ref :: ref in s.tables && a in OM.Values(s.tables[ref]))
  }

  /**
   * Creating an action, by navigation or by `spe:open`, leaves the metadata
   * of every action object the state already holds as it was: the new
   * action's identity is one no existing action has.
   */
  lemma CreationKeepsExistingMetadata(s: State, a: Action, tid: TabId, nav: Navigation, matches: string -> bool,
                                      wid: WindowId, url: Option<string>, id: Option<string>,
                                      screen: ActionWindow.Screen, newWindow: WindowId, created: Tab)
    requires Inv(s) && Holds(s, a)
    ensures a.ref < s.next
    ensures ActionModel.MetaOf(OnUpdated(s, tid, nav, matches, wid).state.meta, a.ref) == ActionModel.MetaOf(s.meta, a.ref)
    ensures ActionModel.MetaOf(OnOpen(s, url, id, screen, newWindow, created).state.meta, a.ref)
              == ActionModel.MetaOf(s.meta, a.ref)
  {
    if exists k :: TabMap.GetAction(s.tabs, k) == Some(a) {
      var k :| TabMap.GetAction(s.tabs, k) == Some(a);
      assert a.ref < s.next;
    } else {
      var ref :| ref in s.tables && a in OM.Values(s.tables[ref]);
      assert a.ref < s.next;
    }
  }

  /**
   * `windows.onFocusChanged(wid)`: a negative id (no window) is ignored;
   * otherwise, when the active tab the browser reports for `wid`
   * (`windowActive`) is a registered customer, that customer is focused.
   */
  function OnFocusChanged(s: State, wid: WindowId, windowActive: Option<Tab>, active: Option<Tab>): (r: Step)
    ensures r.state == s
    ensures wid < 0 || windowActive.None? ==> r.cmds == []
    ensures wid >= 0 && windowActive.Some? ==>
              match TabMap.GetCustomer(s.tabs, NumKey(windowActive.value.id))
              case None => r.cmds == []
              case Some(c) => r.cmds == CustomerModel.Focus(c, CustomerModel.TableOf(s.tables, c), s.window, active)
  {
    if wid < 0 || windowActive.None? then Step(s, [])
    else
      match TabMap.GetCustomer(s.tabs, NumKey(windowActive.value.id))
      case None => Step(s, [])
      case Some(c) => Step(s, CustomerModel.Focus(c, CustomerModel.TableOf(s.tables, c), s.window, active))
  }

  // ---------------------------------------------------------------------------
  // tabs.onRemoved

  /** `for (const action of actions) await action.close()`: each closed in turn, metadata undefined. */
  function CloseEach(actions: seq<Action>, meta: ActionModel.MetaTable): (r: ActionModel.Closing)
    ensures |r.cmds| == |actions|
    ensures forall i :: 0 <= i < |actions| ==> r.cmds[i] == RemoveTabs([actions[i].tab])
    ensures forall a :: a in actions ==> ActionModel.MetaOf(r.meta, a.ref) == None
    ensures forall ref :: ref !in CustomerModel.Refs(actions) ==> ActionModel.MetaOf(r.meta, ref) == ActionModel.MetaOf(meta, ref)
  {
    if actions == [] then ActionModel.Closing(meta, [])
    else
      var first := ActionModel.Close(actions[0], None, meta);
      var rest := CloseEach(actions[1..], first.meta);
      assert forall a :: a in actions ==> a == actions[0] || a in actions[1..];
      assert forall ref :: ref !in CustomerModel.Refs(actions) ==>
               ref != actions[0].ref && ref !in CustomerModel.Refs(actions[1..]);
      var cmds := first.cmds + rest.cmds;
      assert forall i :: 1 <= i < |actions| ==> cmds[i] == rest.cmds[i - 1];
      ActionModel.Closing(rest.meta, cmds)
  }

  /** The payload of `spe:closed`: `{...metadata, id}`, so `id` wins over a metadata field of that name. */
  function ClosedData(md: Option<Metadata>, id: string): (data: map<string, string>)
    ensures "id" in data && data["id"] == id
    ensures forall f :: f != "id" ==> (f in data <==> md.Some? && f in md.value)
    ensures forall f :: f != "id" && f in data ==> data[f] == md.value[f]
  {
    md.GetOr(map[])["id" := id]
  }

  /** The action the action window shows, looked up as `getAction(currentTab || -1)`. */
  function CurrentAction(tabs: TabMap.Registry, w: ActionWindow.State, active: Option<Tab>): (r: Option<Action>)
    ensures ActionWindow.HasId(w) && active.Some? && active.value.id != 0 ==>
              r == TabMap.GetAction(tabs, NumKey(active.value.id))
    ensures !(ActionWindow.HasId(w) && active.Some? && active.value.id != 0) ==>
              r == TabMap.GetAction(tabs, NumKey(-1))
  {
    var current := ActionWindow.GetCurrent(w, active);
    var key := if current.Some? && current.value.id != 0 then current.value.id else -1;
    TabMap.GetAction(tabs, NumKey(key))
  }

  /**
   * `tabs.onRemoved(tid)`. `active` is the action window's active tab as the
   * browser reports it after the removal.
   */
  function OnRemoved(s: State, tid: TabId, active: Option<Tab>): (r: Step)
    ensures !OM.Has(s.tabs, NumKey(tid)) ==> r == Step(s, [])
    ensures r.state.window == s.window && r.state.next == s.next
    ensures OM.Has(s.tabs, NumKey(tid)) ==> r.state.tabs == TabMap.Delete(s.tabs, NumKey(tid))
    ensures OM.Has(s.tabs, NumKey(tid)) ==> r.state.tables == DeregisterFrom(s.tables, TabMap.GetAction(s.tabs, NumKey(tid)))
  {
    if !OM.Has(s.tabs, NumKey(tid)) then Step(s, [])
    else
      var action := TabMap.GetAction(s.tabs, NumKey(tid));
      var tables := DeregisterFrom(s.tables, action);
      var customer := TabMap.GetCustomer(s.tabs, NumKey(tid));
      var closing :=
        if customer.Some? then CloseEach(OM.Values(CustomerModel.TableOf(tables, customer.value)), s.meta)
        else ActionModel.Closing(s.meta, []);
      var s' := s.(tabs := TabMap.Delete(s.tabs, NumKey(tid)), tables := tables, meta := closing.meta);
      match action
      case None => Step(s', closing.cmds)
      case Some(a) =>
        var current := CurrentAction(s'.tabs, s.window, active);
        var minimize :=
          if current.Some? && current.value.customer.id != a.customer.id then ActionWindow.Minimize(s.window)
          else [];
        var data := ClosedData(ActionModel.MetaOf(s'.meta, a.ref), Ids.ActionKey(a.customer.id, a.id));
        Step(s', closing.cmds + minimize + [SendMessage(a.customer.tab, Closed(data))])
  }

  /**
   * `action.customer.deregister(action)` for a removed action's tab: only
   * its owner's table changes, and it stays well formed.
   */
  function DeregisterFrom(tables: CustomerModel.Tables, action: Option<Action>): (r: CustomerModel.Tables)
    ensures action.None? ==> r == tables
    ensures action.Some? ==>
              forall ref :: ref != action.value.customer.ref ==>
                (ref in r <==> ref in tables) && (ref in tables ==> r[ref] == tables[ref])
    ensures action.Some? && CustomerModel.KeyedByTab(CustomerModel.TableOf(tables, action.value.customer)) ==>
              var before := CustomerModel.TableOf(tables, action.value.customer);
              var after := CustomerModel.TableOf(r, action.value.customer);
              && !OM.Has(after, action.value.tab)
              && forall k :: k != action.value.tab ==> OM.Get(after, k) == OM.Get(before, k)
    ensures action.Some? && action.value.customer.ref in tables ==>
              r.Keys == tables.Keys
              && (forall ref :: ref in tables && CustomerModel.TableInv(tables[ref], ref) ==> CustomerModel.TableInv(r[ref], ref))
  {
    if action.Some? then
      var owner := action.value.customer;
      tables[owner.ref := CustomerModel.Deregister(CustomerModel.TableOf(tables, owner), action.value.tab)]
    else tables
  }

  /**
   * Removing an action's tab deregisters it from its customer's table, drops
   * its two registry keys, minimizes the action window exactly when the
   * window now shows an action of a different customer, and ends by telling
   * the customer's page that `customerId:actionId` closed, with the
   * metadata the action was closed with.
   */
  lemma RemoveActionTab(s: State, tid: TabId, active: Option<Tab>)
    requires TabMap.KeysMatch(s.tabs)
    requires TabMap.GetAction(s.tabs, NumKey(tid)).Some?
    requires CustomerModel.KeyedByTab(CustomerModel.TableOf(s.tables, TabMap.GetAction(s.tabs, NumKey(tid)).value.customer))
    ensures var a := TabMap.GetAction(s.tabs, NumKey(tid)).value;
            var r := OnRemoved(s, tid, active);
            var current := CurrentAction(r.state.tabs, s.window, active);
            var minimize := current.Some? && current.value.customer.id != a.customer.id;
            && a.tab == tid
            && !OM.Has(CustomerModel.TableOf(r.state.tables, a.customer), tid)
            && !OM.Has(r.state.tabs, NumKey(tid)) && !OM.Has(r.state.tabs, StrKey(a.id))
            && r.state.meta == s.meta
            && r.cmds == (if minimize then ActionWindow.Minimize(s.window) else [])
                         + [SendMessage(a.customer.tab, Closed(ClosedData(ActionModel.MetaOf(s.meta, a.ref),
                                                                          Ids.ActionKey(a.customer.id, a.id))))]
  {
    var a := TabMap.GetAction(s.tabs, NumKey(tid)).value;
    assert TabMap.Names(NumKey(tid), ActionValue(a));
    assert TabMap.GetCustomer(s.tabs, NumKey(tid)).None?;
    var r := OnRemoved(s, tid, active);
    assert r.state.tables == DeregisterFrom(s.tables, Some(a));
    assert r.state.meta == s.meta;
  }

  /**
   * Removing a customer's tab closes each of its actions in table order (one
   * removal per action tab, metadata undefined), leaves every table alone,
   * and drops the customer's two registry keys.
   */
  lemma RemoveCustomerTab(s: State, tid: TabId, active: Option<Tab>)
    requires TabMap.KeysMatch(s.tabs)
    requires TabMap.GetCustomer(s.tabs, NumKey(tid)).Some?
    ensures var c := TabMap.GetCustomer(s.tabs, NumKey(tid)).value;
            var actions := OM.Values(CustomerModel.TableOf(s.tables, c));
            var r := OnRemoved(s, tid, active);
            && r.state.tables == s.tables
            && !OM.Has(r.state.tabs, NumKey(tid)) && !OM.Has(r.state.tabs, StrKey(c.id))
            && |r.cmds| == |actions|
            && (forall i :: 0 <= i < |actions| ==> r.cmds[i] == RemoveTabs([actions[i].tab]))
            && (forall a :: a in actions ==> ActionModel.MetaOf(r.state.meta, a.ref) == None)
            && (forall ref :: ref !in CustomerModel.Refs(actions) ==>
                  ActionModel.MetaOf(r.state.meta, ref) == ActionModel.MetaOf(s.meta, ref))
  {
    var c := TabMap.GetCustomer(s.tabs, NumKey(tid)).value;
    assert TabMap.Names(NumKey(tid), CustomerValue(c));
  }

  // ---------------------------------------------------------------------------
  // windows.onRemoved

  /** `windows.onRemoved(wid)`: forget the action window exactly when it is the window removed. */
  function OnWindowRemoved(s: State, wid: WindowId): (r: Step)
    ensures r.cmds == []
    ensures s.window == Some(wid) ==> r.state == s.(window := None)
    ensures s.window != Some(wid) ==> r.state == s
  {
    if s.window == Some(wid) then Step(s.(window := ActionWindow.Clear(s.window)), [])
    else Step(s, [])
  }

  /**
   * A removed action window is forgotten: `minimize` then does nothing, and
   * the next `open` without an id creates and holds a fresh window.
   */
  lemma WindowRemovedThenOpen(s: State, url: Option<string>, screen: ActionWindow.Screen,
                              newWindow: WindowId, created: Tab)
    requires s.window.Some?
    ensures var r := OnWindowRemoved(s, s.window.value).state;
            && ActionWindow.Minimize(r.window) == []
            && OnOpen(r, url, None, screen, newWindow, created).state.window == Some(newWindow)
  {
  }

  // ---------------------------------------------------------------------------
  // runtime.onMessage

  /** A request from a page: `spe:open {url, id}`, `spe:close {id, rest}`, `spe:ping`, or any other type. */
  datatype Request =
    | OpenRequest(url: Option<string>, id: Option<string>)
    | CloseRequest(id: Option<string>, rest: Option<Metadata>)
    | PingRequest
    | OtherRequest

  /**
   * `spe:open {url, id}`. Without an id the url opens in the action window
   * directly. Otherwise the id is parsed and, when its customer id names a
   * registered customer, that customer opens action `aid`; the registry is
   * left as it was.
   */
  function OnOpen(s: State, url: Option<string>, id: Option<string>,
                  screen: ActionWindow.Screen, newWindow: WindowId, created: Tab): (r: Step)
    ensures r.state.tabs == s.tabs
    ensures forall ref :: ref != s.next ==> ActionModel.MetaOf(r.state.meta, ref) == ActionModel.MetaOf(s.meta, ref)
    ensures !Truthy(id) ==>
              var o := ActionWindow.Open(s.window, url, screen, newWindow, created);
              r == Step(s.(window := o.state), o.cmds)
    ensures Truthy(id) && TabMap.GetCustomer(s.tabs, StrKey(Ids.ParseId(id.value).cid)).None? ==> r == Step(s, [])
  {
    if !Truthy(id) then
      var o := ActionWindow.Open(s.window, url, screen, newWindow, created);
      Step(s.(window := o.state), o.cmds)
    else
      var p := Ids.ParseId(id.value);
      match TabMap.GetCustomer(s.tabs, StrKey(p.cid))
      case None => Step(s, [])
      case Some(c) =>
        var o := CustomerModel.Open(c, CustomerModel.TableOf(s.tables, c), s.meta, url, p.aid,
                                    s.window, screen, newWindow, created, s.next);
        Step(s.(tables := s.tables[c.ref := o.table], window := o.window, meta := o.meta, next := s.next + 1), o.cmds)
  }

  /**
   * `spe:close {id, rest}`. The id is parsed; its action id, when truthy, is
   * looked up in the registry as a bare key. When the customer id names a
   * registered customer, that customer closes the action's tab (or
   * everything). Only action metadata changes here: the registry, the
   * tables and the window are cleaned up when the tabs are reported removed.
   */
  function OnClose(s: State, id: Option<string>, rest: Option<Metadata>): (r: Step)
    ensures r.state == s.(meta := r.state.meta)
    ensures id.None? ==> r == Step(s, [])
    ensures id.Some? && TabMap.GetCustomer(s.tabs, StrKey(Ids.ParseId(id.value).cid)).None? ==> r == Step(s, [])
  {
    if id.None? then Step(s, [])
    else
      var p := Ids.ParseId(id.value);
      var action := if Truthy(p.aid) then TabMap.GetAction(s.tabs, StrKey(p.aid.value)) else None;
      match TabMap.GetCustomer(s.tabs, StrKey(p.cid))
      case None => Step(s, [])
      case Some(c) =>
        var tid := if action.Some? then Some(action.value.tab) else None;
        var closing := CustomerModel.Close(c, CustomerModel.TableOf(s.tables, c), tid, rest, s.meta);
        Step(s.(meta := closing.meta), closing.cmds)
  }

  /**
   * A close request whose action id is not registered is not narrowed to one
   * action: the named customer closes entirely, its own tab included, and
   * every one of its actions gets the request's metadata.
   */
  lemma CloseUnknownActionClosesCustomer(s: State, id: string, rest: Option<Metadata>)
    requires Truthy(Ids.ParseId(id).aid)
    requires TabMap.GetAction(s.tabs, StrKey(Ids.ParseId(id).aid.value)).None?
    requires TabMap.GetCustomer(s.tabs, StrKey(Ids.ParseId(id).cid)).Some?
    ensures var c := TabMap.GetCustomer(s.tabs, StrKey(Ids.ParseId(id).cid)).value;
            var actions := OM.Values(CustomerModel.TableOf(s.tables, c));
            var r := OnClose(s, Some(id), rest);
            && |r.cmds| == 1 && r.cmds[0].RemoveTabs?
            && c.tab in r.cmds[0].tabs
            && (forall a :: a in actions ==> a.tab in r.cmds[0].tabs && ActionModel.MetaOf(r.state.meta, a.ref) == rest)
  {
    var c := TabMap.GetCustomer(s.tabs, StrKey(Ids.ParseId(id).cid)).value;
    var t := CustomerModel.TableOf(s.tables, c);
    var r := OnClose(s, Some(id), rest);
    assert CustomerModel.Target(t, None).None?;
    forall a | a in OM.Values(t)
      ensures a.tab in r.cmds[0].tabs
    {
      var i :| 0 <= i < |OM.Values(t)| && OM.Values(t)[i] == a;
      assert r.cmds[0].tabs[i] == a.tab;
    }
    assert r.cmds[0].tabs[|t|] == c.tab;
  }

  /**
   * `spe:close` of `cid:aid` is narrowed to one action exactly by the bare
   * `aid` lookup: when the action registered under `aid` has a non-zero tab
   * that `cid`'s table holds, only the action stored there is closed, its tab
   * alone is removed and only its metadata changes.
   */
  lemma CloseOwnActionClosesOnlyIt(s: State, cid: string, aid: string, md: Option<Metadata>)
    requires Inv(s)
    requires Ids.Separator !in cid && Ids.Separator !in aid && aid != ""
    requires TabMap.GetCustomer(s.tabs, StrKey(cid)).Some? && TabMap.GetAction(s.tabs, StrKey(aid)).Some?
    requires var c := TabMap.GetCustomer(s.tabs, StrKey(cid)).value;
             var a := TabMap.GetAction(s.tabs, StrKey(aid)).value;
             a.tab != 0 && OM.Has(CustomerModel.TableOf(s.tables, c), a.tab)
    ensures var c := TabMap.GetCustomer(s.tabs, StrKey(cid)).value;
            var a := TabMap.GetAction(s.tabs, StrKey(aid)).value;
            var b := OM.Get(CustomerModel.TableOf(s.tables, c), a.tab).value;
            var r := OnClose(s, Some(Ids.ActionKey(cid, aid)), md);
            && b.tab == a.tab
            && r.cmds == [RemoveTabs([a.tab])]
            && ActionModel.MetaOf(r.state.meta, b.ref) == md
            && (forall ref :: ref != b.ref ==> ActionModel.MetaOf(r.state.meta, ref) == ActionModel.MetaOf(s.meta, ref))
  {
    Ids.ParseActionKey(cid, aid);
    var c := TabMap.GetCustomer(s.tabs, StrKey(cid)).value;
    assert OwnerRef(CustomerValue(c)) in s.tables;
    assert CustomerModel.KeyedByTab(CustomerModel.TableOf(s.tables, c));
  }

  /**
   * When the action registered under the bare `aid` is not in `cid`'s table
   * (another customer registered that action id last, say), `spe:close` of
   * `cid:aid` is not narrowed: the customer's own tab and every one of its
   * action tabs are removed, and each of its actions gets the request's
   * metadata.
   */
  lemma CloseForeignActionClosesCustomer(s: State, cid: string, aid: string, md: Option<Metadata>)
    requires Ids.Separator !in cid && Ids.Separator !in aid && aid != ""
    requires TabMap.GetCustomer(s.tabs, StrKey(cid)).Some? && TabMap.GetAction(s.tabs, StrKey(aid)).Some?
    requires var c := TabMap.GetCustomer(s.tabs, StrKey(cid)).value;
             var a := TabMap.GetAction(s.tabs, StrKey(aid)).value;
             !OM.Has(CustomerModel.TableOf(s.tables, c), a.tab)
    ensures var c := TabMap.GetCustomer(s.tabs, StrKey(cid)).value;
            var actions := OM.Values(CustomerModel.TableOf(s.tables, c));
            var r := OnClose(s, Some(Ids.ActionKey(cid, aid)), md);
            && |r.cmds| == 1 && r.cmds[0].RemoveTabs?
            && |r.cmds[0].tabs| == |actions| + 1
            && (forall i :: 0 <= i < |actions| ==> r.cmds[0].tabs[i] == actions[i].tab)
            && r.cmds[0].tabs[|actions|] == c.tab
            && (forall a :: a in actions ==> a.tab in r.cmds[0].tabs && ActionModel.MetaOf(r.state.meta, a.ref) == md)
  {
    Ids.ParseActionKey(cid, aid);
    var c := TabMap.GetCustomer(s.tabs, StrKey(cid)).value;
    var t := CustomerModel.TableOf(s.tables, c);
    var r := OnClose(s, Some(Ids.ActionKey(cid, aid)), md);
    forall a | a in OM.Values(t)
      ensures a.tab in r.cmds[0].tabs
    {
      var i :| 0 <= i < |OM.Values(t)| && OM.Values(t)[i] == a;
      assert r.cmds[0].tabs[i] == a.tab;
    }
  }

  /**
   * `runtime.onMessage(request)`. `screen`, `newWindow` and `created` are
   * what the browser reports when the action window opens a tab.
   */
  function OnMessage(s: State, req: Request, screen: ActionWindow.Screen, newWindow: WindowId, created: Tab): (r: Step)
    ensures req.PingRequest? || req.OtherRequest? ==> r == Step(s, [])
  {
    match req
    case OpenRequest(url, id) => OnOpen(s, url, id, screen, newWindow, created)
    case CloseRequest(id, rest) => OnClose(s, id, rest)
    case PingRequest => Step(s, [])
    case OtherRequest => Step(s, [])
  }

  // ---------------------------------------------------------------------------
  // All events, and the invariant they keep

  datatype Event =
    | Updated(tid: TabId, nav: Navigation, matches: string -> bool, tabWindow: WindowId)
    | Activated(tid: TabId, active: Option<Tab>)
    | FocusChanged(wid: WindowId, windowActive: Option<Tab>, active: Option<Tab>)
    | Removed(tid: TabId, active: Option<Tab>)
    | WindowRemoved(wid: WindowId)
    | Received(req: Request, screen: ActionWindow.Screen, newWindow: WindowId, created: Tab)

  /** Dispatch an event to its handler. */
  function Handle(s: State, e: Event): Step {
    match e
    case Updated(tid, nav, matches, wid) => OnUpdated(s, tid, nav, matches, wid)
    case Activated(tid, active) => OnActivated(s, tid, active)
    case FocusChanged(wid, windowActive, active) => OnFocusChanged(s, wid, windowActive, active)
    case Removed(tid, active) => OnRemoved(s, tid, active)
    case WindowRemoved(wid) => OnWindowRemoved(s, wid)
    case Received(req, screen, newWindow, created) => OnMessage(s, req, screen, newWindow, created)
  }

  /**
   * The registry holds each key once and every key names its value; every
   * customer object's table is well formed and its identity is below `next`;
   * every value's customer has a table; an action under its tab id is
   * still among its customer's actions; and every action object, registered
   * or in a table, has an identity below `next`, so `next` is unused.
   */
  ghost predicate Inv(s: State) {
    && OM.Valid(s.tabs)
    && TabMap.KeysMatch(s.tabs)
    && TablesWellFormed(s.tables, s.next)
    && OwnersHaveTables(s.tabs, s.tables)
    && ActionsListed(s.tabs, s.tables)
    && RegistryAllocated(s.tabs, s.next)
    && TablesAllocated(s.tables, s.next)
  }

  /** Every customer object's table is well formed and its identity is below `next`. */
  ghost predicate TablesWellFormed(tables: CustomerModel.Tables, next: nat) {
    forall ref :: ref in tables ==> ref < next && CustomerModel.TableInv(tables[ref], ref)
  }

  /** Every registered value's customer object has a table. */
  ghost predicate OwnersHaveTables(tabs: TabMap.Registry, tables: CustomerModel.Tables) {
    forall k :: OM.Get(tabs, k).Some? ==> OwnerRef(OM.Get(tabs, k).value) in tables
  }

  /** An action registered under a tab id is in its customer's table under that tab. */
  ghost predicate ActionsListed(tabs: TabMap.Registry, tables: CustomerModel.Tables) {
    forall t :: TabMap.GetAction(tabs, NumKey(t)).Some? ==>
      var a := TabMap.GetAction(tabs, NumKey(t)).value;
      OM.Has(CustomerModel.TableOf(tables, a.customer), t)
  }

  /** Every registered action object has an identity below `next`. */
  ghost predicate RegistryAllocated(tabs: TabMap.Registry, next: nat) {
    forall k :: TabMap.GetAction(tabs, k).Some? ==> TabMap.GetAction(tabs, k).value.ref < next
  }

  /** Every action object in a customer's table has an identity below `next`. */
  ghost predicate TablesAllocated(tables: CustomerModel.Tables, next: nat) {
    forall ref, a :: ref in tables && a in OM.Values(tables[ref]) ==> a.ref < next
  }

  /** The customer object a value belongs to. */
  function OwnerRef(v: Value): nat {
    match v
    case CustomerValue(c) => c.ref
    case ActionValue(a) => a.customer.ref
  }

  lemma InitInv()
    ensures Inv(Init)
  {
  }

  /** Registering a value whose customer has a table keeps every owner's table present. */
  lemma SetKeepsOwners(tabs: TabMap.Registry, tables: CustomerModel.Tables, tables': CustomerModel.Tables, v: Value)
    requires OwnersHaveTables(tabs, tables)
    requires tables.Keys <= tables'.Keys && OwnerRef(v) in tables'
    ensures OwnersHaveTables(TabMap.Set(tabs, v.Id(), v.Tab(), v), tables')
  {
    var r := TabMap.Set(tabs, v.Id(), v.Tab(), v);
    forall k | OM.Get(r, k).Some?
      ensures OwnerRef(OM.Get(r, k).value) in tables'
    {
      if k != StrKey(v.Id()) && k != NumKey(v.Tab()) {
        assert OM.Get(r, k) == OM.Get(tabs, k);
      }
    }
  }

  /** A new customer, with a fresh identity and an empty table, leaves every action listed. */
  lemma AddCustomerListed(s: State, cid: string, tid: TabId)
    requires TablesWellFormed(s.tables, s.next) && OwnersHaveTables(s.tabs, s.tables)
    requires ActionsListed(s.tabs, s.tables)
    ensures ActionsListed(AddCustomer(s, cid, tid).tabs, AddCustomer(s, cid, tid).tables)
  {
    var r := AddCustomer(s, cid, tid);
    forall t | TabMap.GetAction(r.tabs, NumKey(t)).Some?
      ensures OM.Has(CustomerModel.TableOf(r.tables, TabMap.GetAction(r.tabs, NumKey(t)).value.customer), t)
    {
      var a := TabMap.GetAction(r.tabs, NumKey(t)).value;
      assert OM.Get(r.tabs, NumKey(t)) == OM.Get(s.tabs, NumKey(t));
      assert TabMap.GetAction(s.tabs, NumKey(t)) == Some(a);
      assert OwnerRef(ActionValue(a)) in s.tables;
      assert a.customer.ref != s.next;
    }
  }

  lemma AddCustomerInv(s: State, cid: string, tid: TabId)
    requires Inv(s)
    ensures Inv(AddCustomer(s, cid, tid))
  {
    var c := Customer(s.next, cid, tid);
    var r := AddCustomer(s, cid, tid);
    TabMap.SetKeepsKeysMatch(s.tabs, CustomerValue(c));
    SetKeepsOwners(s.tabs, s.tables, r.tables, CustomerValue(c));
    AddCustomerListed(s, cid, tid);
    SetKeepsAllocated(s.tabs, s.next, CustomerValue(c));
    assert r.tables[s.next] == [];
  }

  /** Registering a value whose action, if any, is below `next + 1` keeps the registry allocated. */
  lemma SetKeepsAllocated(tabs: TabMap.Registry, next: nat, v: Value)
    requires RegistryAllocated(tabs, next)
    requires v.ActionValue? ==> v.action.ref < next + 1
    ensures RegistryAllocated(TabMap.Set(tabs, v.Id(), v.Tab(), v), next + 1)
  {
    var r := TabMap.Set(tabs, v.Id(), v.Tab(), v);
    forall k | TabMap.GetAction(r, k).Some?
      ensures TabMap.GetAction(r, k).value.ref < next + 1
    {
      if k != StrKey(v.Id()) && k != NumKey(v.Tab()) {
        assert OM.Get(r, k) == OM.Get(tabs, k);
        assert TabMap.GetAction(r, k) == TabMap.GetAction(tabs, k);
      } else {
        assert OM.Get(r, k) == Some(v);
      }
    }
  }

  /** Registering an action in its customer's table and under its tab keeps every action listed. */
  lemma AddActionListed(tabs: TabMap.Registry, tables: CustomerModel.Tables, a: Action, t': CustomerModel.ActionTable)
    requires ActionsListed(tabs, tables)
    requires OM.Has(t', a.tab)
    requires forall k :: OM.Has(CustomerModel.TableOf(tables, a.customer), k) ==> OM.Has(t', k)
    ensures ActionsListed(TabMap.Set(tabs, a.id, a.tab, ActionValue(a)), tables[a.customer.ref := t'])
  {
    var r := TabMap.Set(tabs, a.id, a.tab, ActionValue(a));
    var tables' := tables[a.customer.ref := t'];
    forall t | TabMap.GetAction(r, NumKey(t)).Some?
      ensures OM.Has(CustomerModel.TableOf(tables', TabMap.GetAction(r, NumKey(t)).value.customer), t)
    {
      var b := TabMap.GetAction(r, NumKey(t)).value;
      if t != a.tab {
        assert OM.Get(r, NumKey(t)) == OM.Get(tabs, NumKey(t));
        assert TabMap.GetAction(tabs, NumKey(t)) == Some(b);
      }
    }
  }

  lemma AddActionInv(s: State, c: Customer, aid: string, wid: WindowId, tid: TabId)
    requires Inv(s)
    requires c.ref in s.tables
    ensures Inv(AddAction(s, c, aid, wid, tid))
  {
    AddActionShaped(s, c, aid, wid, tid);
    AddActionAllocated(s, c, aid, wid, tid);
  }

  /** `AddAction` keeps the registry and table conjuncts of the invariant. */
  lemma AddActionShaped(s: State, c: Customer, aid: string, wid: WindowId, tid: TabId)
    requires OM.Valid(s.tabs) && TabMap.KeysMatch(s.tabs) && TablesWellFormed(s.tables, s.next)
    requires OwnersHaveTables(s.tabs, s.tables) && ActionsListed(s.tabs, s.tables)
    requires c.ref in s.tables
    ensures var r := AddAction(s, c, aid, wid, tid);
            && OM.Valid(r.tabs) && TabMap.KeysMatch(r.tabs) && TablesWellFormed(r.tables, r.next)
            && OwnersHaveTables(r.tabs, r.tables) && ActionsListed(r.tabs, r.tables)
  {
    var t0 := s.tables[c.ref];
    var reg := CustomerModel.Register(c, t0, s.meta, s.next, aid, wid, tid);
    var r := AddAction(s, c, aid, wid, tid);
    assert r == s.(tabs := TabMap.Set(s.tabs, aid, tid, ActionValue(reg.action)),
                   tables := s.tables[c.ref := reg.table], meta := reg.meta, next := s.next + 1);
    TabMap.SetKeepsKeysMatch(s.tabs, ActionValue(reg.action));
    SetKeepsOwners(s.tabs, s.tables, r.tables, ActionValue(reg.action));
    assert OM.Has(reg.table, tid);
    AddActionListed(s.tabs, s.tables, reg.action, reg.table);
    assert CustomerModel.TableInv(t0, c.ref);
    ReplaceTableWellFormed(s.tables, s.next, c.ref, reg.table);
  }

  /** The action `AddAction` creates takes identity `next`, so every action stays below the grown `next`. */
  lemma AddActionAllocated(s: State, c: Customer, aid: string, wid: WindowId, tid: TabId)
    requires RegistryAllocated(s.tabs, s.next) && TablesAllocated(s.tables, s.next)
    ensures var r := AddAction(s, c, aid, wid, tid);
            RegistryAllocated(r.tabs, r.next) && TablesAllocated(r.tables, r.next)
  {
    var t0 := CustomerModel.TableOf(s.tables, c);
    var reg := CustomerModel.Register(c, t0, s.meta, s.next, aid, wid, tid);
    SetKeepsAllocated(s.tabs, s.next, ActionValue(reg.action));
    assert forall a :: a in OM.Values(t0) ==> a.ref < s.next;
    ReplaceTableAllocated(s.tables, s.next, c.ref, reg.table);
  }

  /** Replacing a table with one whose actions are all below `next + 1` keeps the tables allocated. */
  lemma ReplaceTableAllocated(tables: CustomerModel.Tables, next: nat, ref: nat, t: CustomerModel.ActionTable)
    requires TablesAllocated(tables, next)
    requires forall a :: a in OM.Values(t) ==> a.ref < next + 1
    ensures TablesAllocated(tables[ref := t], next + 1)
  {
  }

  /** Replacing a table with one that keeps the table invariant keeps every table well formed. */
  lemma ReplaceTableWellFormed(tables: CustomerModel.Tables, next: nat, ref: nat, t: CustomerModel.ActionTable)
    requires TablesWellFormed(tables, next) && ref < next + 1
    requires CustomerModel.TableInv(t, ref)
    ensures TablesWellFormed(tables[ref := t], next + 1)
  {
  }

  lemma OnUpdatedInv(s: State, tid: TabId, nav: Navigation, matches: string -> bool, wid: WindowId)
    requires Inv(s)
    ensures Inv(OnUpdated(s, tid, nav, matches, wid).state)
  {
    var r := OnUpdated(s, tid, nav, matches, wid).state;
    if !Truthy(nav.url) || !matches(nav.url.value) || (!IsCustomerPage(nav) && !IsActionPage(nav)) {
      assert r == s;
    } else if IsCustomerPage(nav) {
      PathsDisjoint(nav.pathname);
      assert r == AddCustomer(s, nav.customerId.value, tid);
      AddCustomerInv(s, nav.customerId.value, tid);
    } else {
      var customer := TabMap.GetCustomer(s.tabs, StrKey(nav.customerId.value));
      if customer.Some? {
        var c := customer.value;
        assert OwnerRef(CustomerValue(c)) in s.tables;
        assert r == AddAction(s, c, nav.actionId.value, wid, tid);
        AddActionInv(s, c, nav.actionId.value, wid, tid);
      } else {
        assert r == s;
      }
    }
  }

  /** Deleting a registry key keeps every remaining owner's table present. */
  lemma DeleteKeepsOwners(tabs: TabMap.Registry, tables: CustomerModel.Tables, tables': CustomerModel.Tables, k: Key)
    requires OwnersHaveTables(tabs, tables)
    requires tables.Keys <= tables'.Keys
    ensures OwnersHaveTables(TabMap.Delete(tabs, k), tables')
  {
    var r := TabMap.Delete(tabs, k);
    forall k' | OM.Get(r, k').Some?
      ensures OwnerRef(OM.Get(r, k').value) in tables'
    {
      assert OM.Get(r, k') == OM.Get(tabs, k');
    }
  }

  /** After a removal every action still registered under a tab is still in its customer's table. */
  lemma RemovedListed(tabs: TabMap.Registry, tables: CustomerModel.Tables, next: nat, tid: TabId)
    requires TabMap.KeysMatch(tabs) && ActionsListed(tabs, tables)
    requires TablesWellFormed(tables, next) && OwnersHaveTables(tabs, tables)
    ensures ActionsListed(TabMap.Delete(tabs, NumKey(tid)), DeregisterFrom(tables, TabMap.GetAction(tabs, NumKey(tid))))
  {
    var tabs' := TabMap.Delete(tabs, NumKey(tid));
    var tables' := DeregisterFrom(tables, TabMap.GetAction(tabs, NumKey(tid)));
    forall t | TabMap.GetAction(tabs', NumKey(t)).Some?
      ensures OM.Has(CustomerModel.TableOf(tables', TabMap.GetAction(tabs', NumKey(t)).value.customer), t)
    {
      assert t != tid;
      assert OM.Get(tabs', NumKey(t)) == OM.Get(tabs, NumKey(t));
      StillListed(tabs, tables, next, tid, t);
    }
  }

  /** An action under another tab `t` than the removed `tid` stays in its customer's table. */
  lemma StillListed(tabs: TabMap.Registry, tables: CustomerModel.Tables, next: nat, tid: TabId, t: TabId)
    requires TabMap.KeysMatch(tabs) && ActionsListed(tabs, tables)
    requires TablesWellFormed(tables, next) && OwnersHaveTables(tabs, tables)
    requires t != tid && TabMap.GetAction(tabs, NumKey(t)).Some?
    ensures var tables' := DeregisterFrom(tables, TabMap.GetAction(tabs, NumKey(tid)));
            OM.Has(CustomerModel.TableOf(tables', TabMap.GetAction(tabs, NumKey(t)).value.customer), t)
  {
    var action := TabMap.GetAction(tabs, NumKey(tid));
    var tables' := DeregisterFrom(tables, action);
    var b := TabMap.GetAction(tabs, NumKey(t)).value;
    var before := CustomerModel.TableOf(tables, b.customer);
    assert OM.Has(before, t);
    if action.Some? {
      var a := action.value;
      assert TabMap.Names(NumKey(tid), ActionValue(a));
      if b.customer.ref == a.customer.ref {
        assert OwnerRef(ActionValue(a)) in tables;
        assert before == CustomerModel.TableOf(tables, a.customer);
        assert CustomerModel.KeyedByTab(before);
        assert CustomerModel.TableOf(tables', b.customer) == CustomerModel.TableOf(tables', a.customer);
        assert a.tab == tid;
        assert OM.Get(CustomerModel.TableOf(tables', a.customer), t) == OM.Get(before, t);
      } else {
        assert OwnerRef(ActionValue(b)) in tables;
        assert CustomerModel.TableOf(tables', b.customer) == before;
      }
    } else {
      assert tables' == tables;
    }
  }

  lemma OnRemovedInv(s: State, tid: TabId, active: Option<Tab>)
    requires Inv(s)
    ensures Inv(OnRemoved(s, tid, active).state)
  {
    if OM.Has(s.tabs, NumKey(tid)) {
      var r := OnRemoved(s, tid, active).state;
      var action := TabMap.GetAction(s.tabs, NumKey(tid));
      TabMap.DeleteKeepsKeysMatch(s.tabs, NumKey(tid));
      RemovedTablesWellFormed(s.tabs, s.tables, s.next, tid);
      DeleteKeepsOwners(s.tabs, s.tables, r.tables, NumKey(tid));
      RemovedListed(s.tabs, s.tables, s.next, tid);
      DeleteKeepsAllocated(s.tabs, s.next, NumKey(tid));
      DeregisterKeepsAllocated(s.tables, s.next, action);
    }
  }

  /** Deleting a registry key keeps the registry allocated. */
  lemma DeleteKeepsAllocated(tabs: TabMap.Registry, next: nat, k: Key)
    requires RegistryAllocated(tabs, next)
    ensures RegistryAllocated(TabMap.Delete(tabs, k), next)
  {
    var r := TabMap.Delete(tabs, k);
    forall k' | TabMap.GetAction(r, k').Some?
      ensures TabMap.GetAction(r, k').value.ref < next
    {
      if OM.Get(tabs, k).Some? {
        var v := OM.Get(tabs, k).value;
        assert k' != StrKey(v.Id()) && k' != NumKey(v.Tab());
      }
      assert OM.Get(r, k') == OM.Get(tabs, k');
      assert TabMap.GetAction(r, k') == TabMap.GetAction(tabs, k');
    }
  }

  /** Deregistering a removed action keeps the tables allocated. */
  lemma DeregisterKeepsAllocated(tables: CustomerModel.Tables, next: nat, action: Option<Action>)
    requires TablesAllocated(tables, next)
    ensures TablesAllocated(DeregisterFrom(tables, action), next)
  {
    if action.Some? {
      var owner := action.value.customer;
      var t := CustomerModel.TableOf(tables, owner);
      assert DeregisterFrom(tables, action) == tables[owner.ref := CustomerModel.Deregister(t, action.value.tab)];
      assert forall a :: a in OM.Values(t) ==> a.ref < next;
    }
  }

  /** A removal deregisters at most one tab from one existing table, which keeps every table well formed. */
  lemma RemovedTablesWellFormed(tabs: TabMap.Registry, tables: CustomerModel.Tables, next: nat, tid: TabId)
    requires TablesWellFormed(tables, next) && OwnersHaveTables(tabs, tables)
    ensures var tables' := DeregisterFrom(tables, TabMap.GetAction(tabs, NumKey(tid)));
            tables'.Keys == tables.Keys && TablesWellFormed(tables', next)
  {
    var action := TabMap.GetAction(tabs, NumKey(tid));
    if action.Some? {
      assert OM.Get(tabs, NumKey(tid)) == Some(ActionValue(action.value));
      assert OwnerRef(ActionValue(action.value)) in tables;
    }
  }

  /** Growing one customer's table, within the table invariant, keeps `Inv`. */
  lemma GrowTableKeepsInv(s: State, ref: nat, t: CustomerModel.ActionTable, w: ActionWindow.State,
                          meta: ActionModel.MetaTable)
    requires Inv(s) && ref in s.tables
    requires CustomerModel.TableInv(t, ref)
    requires forall k :: OM.Has(s.tables[ref], k) ==> OM.Has(t, k)
    requires forall a :: a in OM.Values(t) ==> a.ref < s.next + 1
    ensures Inv(s.(tables := s.tables[ref := t], window := w, meta := meta, next := s.next + 1))
  {
  }

  lemma OnOpenInv(s: State, url: Option<string>, id: Option<string>,
                  screen: ActionWindow.Screen, newWindow: WindowId, created: Tab)
    requires Inv(s)
    ensures Inv(OnOpen(s, url, id, screen, newWindow, created).state)
  {
    if Truthy(id) {
      var p := Ids.ParseId(id.value);
      var customer := TabMap.GetCustomer(s.tabs, StrKey(p.cid));
      if customer.Some? {
        var c := customer.value;
        assert OwnerRef(CustomerValue(c)) in s.tables;
        var o := CustomerModel.Open(c, s.tables[c.ref], s.meta, url, p.aid, s.window, screen, newWindow, created, s.next);
        assert forall a :: a in OM.Values(s.tables[c.ref]) ==> a.ref < s.next;
        assert o.action.Some? ==> o.action.value in OM.Values(s.tables[c.ref]) || o.action.value.ref == s.next;
        GrowTableKeepsInv(s, c.ref, o.table, o.window, o.meta);
      }
    }
  }

  lemma OnMessageInv(s: State, req: Request, screen: ActionWindow.Screen, newWindow: WindowId, created: Tab)
    requires Inv(s)
    ensures Inv(OnMessage(s, req, screen, newWindow, created).state)
  {
    match req
    case OpenRequest(url, id) => OnOpenInv(s, url, id, screen, newWindow, created);
    case CloseRequest(id, rest) =>
    case PingRequest =>
    case OtherRequest =>
  }

  /** Every handler keeps the invariant. */
  lemma HandleKeepsInv(s: State, e: Event)
    requires Inv(s)
    ensures Inv(Handle(s, e).state)
  {
    match e
    case Updated(tid, nav, matches, wid) => OnUpdatedInv(s, tid, nav, matches, wid);
    case Activated(tid, active) =>
    case FocusChanged(wid, windowActive, active) =>
    case Removed(tid, active) => OnRemovedInv(s, tid, active);
    case WindowRemoved(wid) =>
    case Received(req, screen, newWindow, created) => OnMessageInv(s, req, screen, newWindow, created);
  }

  // ---------------------------------------------------------------------------
  // Consequences of registering actions under their bare id

  /**
   * Actions are registered under their bare action id, in the same string
   * namespace as customer ids: an action whose id equals a customer id hides
   * that customer from `getCustomer`, so requests naming it are ignored.
   */
  lemma ActionIdShadowsCustomer(s: State, tid: TabId, nav: Navigation, matches: string -> bool, wid: WindowId)
    requires Truthy(nav.url) && matches(nav.url.value) && IsActionPage(nav)
    requires TabMap.GetCustomer(s.tabs, StrKey(nav.customerId.value)).Some?
    ensures var r := OnUpdated(s, tid, nav, matches, wid).state;
            && TabMap.GetCustomer(r.tabs, StrKey(nav.actionId.value)).None?
            && TabMap.GetAction(r.tabs, StrKey(nav.actionId.value)).Some?
  {
    NavigateToActionPage(s, tid, nav, matches, wid);
  }

  /**
   * Customer 42 opens in tab 10; the same tab then navigates to action 7 of
   * customer 42 in window 1; then tab 10 closes. The action is registered
   * under "7" and under tab 10 (replacing the customer there, while "42"
   * still names the customer); on removal it leaves its customer's table and
   * the customer's page hears that "42:7" closed.
   */
  lemma CustomerThenActionInOneTab(matches: string -> bool)
    requires forall u :: matches(u)
    ensures var s1 := OnUpdated(Init, 10, ScenarioCustomerPage, matches, 1).state;
            var s2 := OnUpdated(s1, 10, ScenarioActionPage, matches, 1).state;
            var c := Customer(0, "42", 10);
            var a := Action(1, "7", c, 1, 10);
            var r := OnRemoved(s2, 10, None);
            && OM.Get(s1.tabs, StrKey("42")) == Some(CustomerValue(c))
            && OM.Get(s1.tabs, NumKey(10)) == Some(CustomerValue(c))
            && OM.Get(s2.tabs, StrKey("7")) == Some(ActionValue(a))
            && OM.Get(s2.tabs, NumKey(10)) == Some(ActionValue(a))
            && OM.Get(s2.tabs, StrKey("42")) == Some(CustomerValue(c))
            && !OM.Has(CustomerModel.TableOf(r.state.tables, c), 10)
            && r.cmds == [SendMessage(10, Closed(map["id" := "42:7"]))]
  {
    ScenarioCustomerStep(matches);
    var s1 := OnUpdated(Init, 10, ScenarioCustomerPage, matches, 1).state;
    ScenarioActionStep(s1, matches);
    var s2 := OnUpdated(s1, 10, ScenarioActionPage, matches, 1).state;
    assert OwnerRef(OM.Get(s2.tabs, StrKey("42")).value) in s2.tables;
    ScenarioRemoveStep(s2);
  }

  /** The first step of the scenario: customer 42 is registered under "42" and tab 10. */
  lemma ScenarioCustomerStep(matches: string -> bool)
    requires forall u :: matches(u)
    ensures var s1 := OnUpdated(Init, 10, ScenarioCustomerPage, matches, 1).state;
            && OM.Get(s1.tabs, StrKey("42")) == Some(CustomerValue(Customer(0, "42", 10)))
            && OM.Get(s1.tabs, NumKey(10)) == Some(CustomerValue(Customer(0, "42", 10)))
            && s1.next == 1 && s1.window == None && Inv(s1)
  {
    assert Ids.IsPrefix(CustomerPaths[0], ScenarioCustomerPage.pathname);
    NavigateToCustomerPage(Init, 10, ScenarioCustomerPage, matches, 1);
    InitInv();
    OnUpdatedInv(Init, 10, ScenarioCustomerPage, matches, 1);
  }

  /** The second step of the scenario: action 7 of customer 42 replaces it under tab 10, with no metadata. */
  lemma ScenarioActionStep(s1: State, matches: string -> bool)
    requires forall u :: matches(u)
    requires OM.Get(s1.tabs, StrKey("42")) == Some(CustomerValue(Customer(0, "42", 10)))
    requires s1.next == 1 && Inv(s1)
    ensures var s2 := OnUpdated(s1, 10, ScenarioActionPage, matches, 1).state;
            var a := Action(1, "7", Customer(0, "42", 10), 1, 10);
            && OM.Get(s2.tabs, StrKey("7")) == Some(ActionValue(a))
            && OM.Get(s2.tabs, NumKey(10)) == Some(ActionValue(a))
            && OM.Get(s2.tabs, StrKey("42")) == OM.Get(s1.tabs, StrKey("42"))
            && ActionModel.MetaOf(s2.meta, 1) == None && s2.window == s1.window && Inv(s2)
  {
    assert Ids.IsPrefix(ActionPaths[0], ScenarioActionPage.pathname);
    NavigateToActionPage(s1, 10, ScenarioActionPage, matches, 1);
    OnUpdatedInv(s1, 10, ScenarioActionPage, matches, 1);
  }

  /** The last step of the scenario: tab 10 closes and customer 42's page hears that "42:7" closed. */
  lemma ScenarioRemoveStep(s2: State)
    requires TabMap.KeysMatch(s2.tabs)
    requires CustomerModel.KeyedByTab(CustomerModel.TableOf(s2.tables, Customer(0, "42", 10)))
    requires s2.window == None
    requires OM.Get(s2.tabs, NumKey(10)) == Some(ActionValue(Action(1, "7", Customer(0, "42", 10), 1, 10)))
    requires ActionModel.MetaOf(s2.meta, 1) == None
    ensures var r := OnRemoved(s2, 10, None);
            && !OM.Has(CustomerModel.TableOf(r.state.tables, Customer(0, "42", 10)), 10)
            && r.cmds == [SendMessage(10, Closed(map["id" := "42:7"]))]
  {
    var a := Action(1, "7", Customer(0, "42", 10), 1, 10);
    assert TabMap.GetAction(s2.tabs, NumKey(10)) == Some(a);
    assert Ids.ActionKey(a.customer.id, a.id) == "42:7";
    assert ClosedData(None, "42:7") == map["id" := "42:7"];
    RemoveActionTab(s2, 10, None);
  }

  /** The first navigation of the scenario: customer 42's page. */
  const ScenarioCustomerPage: Navigation :=
    Navigation(Some("/CustomerScreenEntry.aspx?CustomerId=42"), "/CustomerScreenEntry.aspx", Some("42"), None)

  /** The second navigation of the scenario: action 7 of customer 42. */
  const ScenarioActionPage: Navigation :=
    Navigation(Some("/CustomerService/ActionScreen.aspx?CustomerId=42&ActionId=7"),
               "/CustomerService/ActionScreen.aspx", Some("42"), Some("7"))
}

=== FILE: customer.dfy ===
/**
 * `Customer`: a customer tab and the action tabs it owns. The owned actions
 * are the object's `_actions` map, tab id to Action in registration order;
 * since several registry keys can share one customer object, every table is
 * kept in a heap `Tables` keyed by the customer's identity.
 */
module CustomerModel {
  import opened Wrappers
  import opened Types
  import OM = OrderedMap
  import ActionModel
  import ActionWindow

  /** A customer's `_actions`. */
  type ActionTable = OM.OMap<TabId, Action>

  /** The `_actions` of every customer object, by identity. */
  type Tables = map<nat, ActionTable>

  /** `customer._actions`; an object never given a table owns nothing. */
  function TableOf(tables: Tables, c: Customer): ActionTable {
    if c.ref in tables then tables[c.ref] else []
  }

  /** Every action in the table is stored under its own tab. */
  ghost predicate KeyedByTab(t: ActionTable) {
    forall tid :: OM.Get(t, tid).Some? ==> OM.Get(t, tid).value.tab == tid
  }

  /** Every action in the table belongs to the customer object `ref`. */
  ghost predicate OwnedBy(t: ActionTable, ref: nat) {
    forall a :: a in OM.Values(t) ==> a.customer.ref == ref
  }

  /** The invariant every customer's table keeps. */
  ghost predicate TableInv(t: ActionTable, ref: nat) {
    OM.Valid(t) && KeyedByTab(t) && OwnedBy(t, ref)
  }

  datatype Registered = Registered(action: Action, table: ActionTable, meta: ActionModel.MetaTable)

  /**
   * `customer.register(aid, wid, tid)`: a new Action `ref` of this customer
   * for window `wid` and tab `tid`, stored under `tid`, its metadata not yet
   * set. An action already at `tid` is replaced in place; no other entry and
   * no other object's metadata changes.
   */
  function Register(c: Customer, t: ActionTable, meta: ActionModel.MetaTable,
                    ref: nat, aid: string, wid: WindowId, tid: TabId): (r: Registered)
    ensures r.action == Action(ref, aid, c, wid, tid)
    ensures ActionModel.MetaOf(r.meta, ref) == None
    ensures forall ref' :: ref' != ref ==> ActionModel.MetaOf(r.meta, ref') == ActionModel.MetaOf(meta, ref')
    ensures OM.Get(r.table, tid) == Some(r.action)
    ensures forall k :: k != tid ==> OM.Get(r.table, k) == OM.Get(t, k)
    ensures OM.Keys(r.table) == if OM.Has(t, tid) then OM.Keys(t) else OM.Keys(t) + [tid]
    ensures forall a :: a in OM.Values(r.table) ==> a in OM.Values(t) || a == r.action
    ensures TableInv(t, c.ref) ==> TableInv(r.table, c.ref)
  {
    var action := ActionModel.New(ref, aid, c, wid, tid);
    Registered(action, OM.Set(t, tid, action), meta[ref := None])
  }

  /**
   * `customer.deregister(tid)`: drop the action stored under `tid` (by its own
   * tab); nothing when there is none. In a table keyed by tab it removes
   * exactly `tid`.
   */
  function Deregister(t: ActionTable, tid: TabId): (r: ActionTable)
    ensures !OM.Has(t, tid) ==> r == t
    ensures KeyedByTab(t) ==> OM.Get(r, tid) == None
    ensures KeyedByTab(t) ==> forall k :: k != tid ==> OM.Get(r, k) == OM.Get(t, k)
    ensures forall a :: a in OM.Values(r) ==> a in OM.Values(t)
    ensures forall ref :: TableInv(t, ref) ==> TableInv(r, ref)
  {
    match OM.Get(t, tid)
    case None => t
    case Some(a) => OM.Remove(t, a.tab)
  }

  /** A second `deregister` of the same tab changes nothing, in any table. */
  lemma DeregisterIdempotent(t: ActionTable, tid: TabId)
    ensures Deregister(Deregister(t, tid), tid) == Deregister(t, tid)
  {
    var once := Deregister(t, tid);
    match OM.Get(t, tid)
    case None =>
    case Some(a) =>
      if a.tab != tid {
        assert OM.Get(once, tid) == Some(a);
        assert !OM.Has(once, a.tab);
      }
  }

  /** The identities of the given actions. */
  function Refs(actions: seq<Action>): set<nat> {
    set a | a in actions :: a.ref
  }

  /** Their tab ids, in order. */
  function Tabs(actions: seq<Action>): (tabs: seq<TabId>)
    ensures |tabs| == |actions|
    ensures forall i :: 0 <= i < |actions| ==> tabs[i] == actions[i].tab
  {
    seq(|actions|, i requires 0 <= i < |actions| => actions[i].tab)
  }

  /** Set the metadata of every given action to `md`, leaving all others alone. */
  function SetMetadata(actions: seq<Action>, md: Option<Metadata>, meta: ActionModel.MetaTable): (r: ActionModel.MetaTable)
    ensures forall a :: a in actions ==> ActionModel.MetaOf(r, a.ref) == md
    ensures forall ref :: ref !in Refs(actions) ==> ActionModel.MetaOf(r, ref) == ActionModel.MetaOf(meta, ref)
  {
    if actions == [] then meta
    else
      var rest := SetMetadata(actions[1..], md, meta);
      assert forall a :: a in actions ==> a == actions[0] || a in actions[1..];
      rest[actions[0].ref := md]
  }

  /** The action `close(tid, ...)` targets: `tid && this._actions.get(tid)`. */
  function Target(t: ActionTable, tid: Option<TabId>): (r: Option<Action>)
    ensures r.Some? <==> NonZero(tid) && OM.Has(t, tid.value)
    ensures r.Some? ==> OM.Get(t, tid.value) == r
  {
    if NonZero(tid) then OM.Get(t, tid.value) else None
  }

  /**
   * `customer.close(tid, md)`. When `tid` names an owned action, close only
   * that action. Otherwise give every owned action metadata `md` and remove
   * all their tabs, in table order, followed by the customer's own tab, in a
   * single request.
   */
  function Close(c: Customer, t: ActionTable, tid: Option<TabId>, md: Option<Metadata>,
                 meta: ActionModel.MetaTable): (r: ActionModel.Closing)
    ensures Target(t, tid).Some? ==>
              var a := Target(t, tid).value;
              && ActionModel.MetaOf(r.meta, a.ref) == md
              && (forall ref :: ref != a.ref ==> ActionModel.MetaOf(r.meta, ref) == ActionModel.MetaOf(meta, ref))
              && r.cmds == [RemoveTabs([a.tab])]
    ensures Target(t, tid).None? ==>
              && (forall a :: a in OM.Values(t) ==> ActionModel.MetaOf(r.meta, a.ref) == md)
              && (forall ref :: ref !in Refs(OM.Values(t)) ==> ActionModel.MetaOf(r.meta, ref) == ActionModel.MetaOf(meta, ref))
              && |r.cmds| == 1 && r.cmds[0].RemoveTabs?
              && |r.cmds[0].tabs| == |t| + 1
              && (forall i :: 0 <= i < |t| ==> r.cmds[0].tabs[i] == OM.Values(t)[i].tab)
              && r.cmds[0].tabs[|t|] == c.tab
  {
    match Target(t, tid)
    case Some(a) => ActionModel.Close(a, md, meta)
    case None =>
      var actions := OM.Values(t);
      ActionModel.Closing(SetMetadata(actions, md, meta), [RemoveTabs(Tabs(actions) + [c.tab])])
  }

  /**
   * `customer.focus()`, given the browser's report of the action window's
   * active tab. No window: nothing. No actions: minimize the window. The
   * report missing: nothing more (the source dereferences it and throws).
   * Otherwise focus the reported tab's window; if that tab is not one of
   * this customer's, activate the first-registered action's tab (unless its
   * id is 0, which the source reads as false); finally activate the
   * customer's own tab. It does not check whether the reported tab belongs
   * to any action at all.
   */
  function Focus(c: Customer, t: ActionTable, w: ActionWindow.State, active: Option<Tab>): (cmds: seq<Command>)
    ensures !ActionWindow.HasId(w) ==> cmds == []
    ensures ActionWindow.HasId(w) && t == [] ==> cmds == [MinimizeWindow(w.value)]
    ensures ActionWindow.HasId(w) && t != [] && active.None? ==> cmds == []
    ensures ActionWindow.HasId(w) && t != [] && active.Some? ==>
              && 2 <= |cmds| <= 3
              && cmds[0] == FocusWindow(active.value.windowId)
              && cmds[|cmds| - 1] == Activate(c.tab)
              && (|cmds| == 3 <==> !OM.Has(t, active.value.id) && OM.Keys(t)[0] != 0)
              && (|cmds| == 3 ==> cmds[1] == Activate(OM.Keys(t)[0]))
  {
    if !ActionWindow.HasId(w) then []
    else if |t| == 0 then ActionWindow.Minimize(w)
    else
      match ActionWindow.GetCurrent(w, active)
      case None => []
      case Some(current) =>
        var first := OM.Keys(t)[0];
        var switch := if !OM.Has(t, current.id) && first != 0 then [Activate(first)] else [];
        [FocusWindow(current.windowId)] + switch + [Activate(c.tab)]
  }

  /**
   * When `focus` switches tabs, it activates a tab this customer owns an
   * action in: the tab of the first-registered action.
   */
  lemma FocusSwitchesToOwnAction(c: Customer, t: ActionTable, w: ActionWindow.State, active: Option<Tab>)
    requires KeyedByTab(t)
    requires |Focus(c, t, w, active)| == 3
    ensures var cmds := Focus(c, t, w, active);
            && OM.Get(t, cmds[1].tab).Some?
            && OM.Get(t, cmds[1].tab).value.tab == cmds[1].tab
            && OM.Get(t, cmds[1].tab) == Some(OM.Values(t)[0])
  {
    assert t != [];
    assert OM.Keys(t)[0] == t[0].0;
    assert OM.Values(t)[0] == t[0].1;
  }

  /** The index of the first action with id `aid` (`actions.find(a => a.id === aid)`). */
  function Find(actions: seq<Action>, aid: string): (r: Option<nat>)
    ensures r.Some? ==> r.value < |actions| && actions[r.value].id == aid
    ensures r.Some? ==> forall j :: 0 <= j < r.value ==> actions[j].id != aid
    ensures r.None? ==> forall j :: 0 <= j < |actions| ==> actions[j].id != aid
  {
    if actions == [] then None
    else if actions[0].id == aid then Some(0)
    else
      match Find(actions[1..], aid)
      case None => None
      case Some(i) => Some(i + 1)
  }

  datatype Opened = Opened(action: Option<Action>, table: ActionTable, window: ActionWindow.State,
                          meta: ActionModel.MetaTable, cmds: seq<Command>)

  /**
   * `customer.open(url, aid)`. A falsy `url` or `aid`: activate the
   * customer's tab and resolve to nothing. An owned action with id `aid`:
   * activate its tab and resolve to it. Otherwise open `url` in the action
   * window and register the resulting tab as a new action `ref` of this
   * customer. The registry is not updated here.
   */
  function Open(c: Customer, t: ActionTable, meta: ActionModel.MetaTable, url: Option<string>, aid: Option<string>,
                w: ActionWindow.State, screen: ActionWindow.Screen, newWindow: WindowId, created: Tab,
                ref: nat): (r: Opened)
    ensures !Truthy(url) || !Truthy(aid) ==> r == Opened(None, t, w, meta, [Activate(c.tab)])
    ensures Truthy(url) && Truthy(aid) && Find(OM.Values(t), aid.value).Some? ==>
              && r.action.Some? && r.action.value in OM.Values(t) && r.action.value.id == aid.value
              && r.action == Some(OM.Values(t)[Find(OM.Values(t), aid.value).value])
              && r.table == t && r.window == w && r.meta == meta
              && r.cmds == [Activate(r.action.value.tab)]
    ensures Truthy(url) && Truthy(aid) && Find(OM.Values(t), aid.value).None? ==>
              var o := ActionWindow.Open(w, url, screen, newWindow, created);
              && r.action == Some(Action(ref, aid.value, c, created.windowId, created.id))
              && OM.Get(r.table, created.id) == r.action
              && (forall k :: k != created.id ==> OM.Get(r.table, k) == OM.Get(t, k))
              && r.window == o.state && r.window.Some?
              && r.cmds == o.cmds
              && ActionModel.MetaOf(r.meta, ref) == None
              && (forall ref' :: ref' != ref ==> ActionModel.MetaOf(r.meta, ref') == ActionModel.MetaOf(meta, ref'))
    ensures forall k :: OM.Has(t, k) ==> OM.Has(r.table, k)
    ensures forall a :: a in OM.Values(r.table) ==> a in OM.Values(t) || r.action == Some(a)
    ensures TableInv(t, c.ref) ==> TableInv(r.table, c.ref)
  {
    if !Truthy(url) || !Truthy(aid) then
      Opened(None, t, w, meta, [Activate(c.tab)])
    else
      var actions := OM.Values(t);
      match Find(actions, aid.value)
      case Some(i) =>
        Opened(Some(actions[i]), t, w, meta, [Activate(actions[i].tab)])
      case None =>
        var o := ActionWindow.Open(w, url, screen, newWindow, created);
        var reg := Register(c, t, meta, ref, aid.value, created.windowId, created.id);
        Opened(Some(reg.action), reg.table, o.state, reg.meta, o.cmds)
  }
}

=== FILE: ids.dfy ===
/**
 * The identifier codec and the path matcher of the background script:
 * `parseId` splits a page id on ':' (as `String.prototype.split` does) and
 * keeps the first two parts; a closed action is named `customerId:actionId`.
 */
module Ids {
  import opened Wrappers

  const Separator: char := ':'

  /** `s.split(sep)` for a one-character separator: never empty, no part holds `sep`. */
  function Split(s: string, sep: char): (parts: seq<string>)
    ensures |parts| >= 1
    ensures forall i :: 0 <= i < |parts| ==> sep !in parts[i]
  {
    if s == [] then [""]
    else
      var rest := Split(s[1..], sep);
      if s[0] == sep then [""] + rest
      else [[s[0]] + rest[0]] + rest[1..]
  }

  /** `parts.join(sep)`, the inverse of `Split`. */
  function Join(parts: seq<string>, sep: char): string
    requires |parts| >= 1
  {
    if |parts| == 1 then parts[0] else parts[0] + [sep] + Join(parts[1..], sep)
  }

  /** Joining the parts of a split gives back the string. */
  lemma {:induction false} JoinSplit(s: string, sep: char)
    ensures Join(Split(s, sep), sep) == s
  {
    if s != [] {
      var rest := Split(s[1..], sep);
      JoinSplit(s[1..], sep);
      if s[0] == sep {
        assert Split(s, sep)[1..] == rest;
        assert s == [s[0]] + s[1..];
      } else {
        var parts := Split(s, sep);
        if |rest| == 1 {
          assert s == [s[0]] + s[1..];
        } else {
          assert parts[1..] == rest[1..];
          assert Join(rest, sep) == rest[0] + [sep] + Join(rest[1..], sep);
          assert s == [s[0]] + s[1..];
        }
      }
    }
  }

  /** Splitting a string that holds no separator gives the string alone. */
  lemma {:induction false} SplitWithoutSeparator(s: string, sep: char)
    requires sep !in s
    ensures Split(s, sep) == [s]
  {
    if s != [] {
      SplitWithoutSeparator(s[1..], sep);
      assert [s[0]] + s[1..] == s;
    }
  }

  /** Splitting `a + sep + b` for a separator-free `a` puts `a` first, then the parts of `b`. */
  lemma {:induction false} SplitAfterSeparator(a: string, b: string, sep: char)
    requires sep !in a
    ensures Split(a + [sep] + b, sep) == [a] + Split(b, sep)
  {
    if a == [] {
      assert a + [sep] + b == [sep] + b;
      assert ([sep] + b)[1..] == b;
    } else {
      var s := a + [sep] + b;
      assert s[0] == a[0];
      assert s[1..] == a[1..] + [sep] + b;
      SplitAfterSeparator(a[1..], b, sep);
      assert [a[0]] + a[1..] == a;
    }
  }

  /** Splitting a join of separator-free parts gives the parts back. */
  lemma {:induction false} SplitJoin(parts: seq<string>, sep: char)
    requires |parts| >= 1
    requires forall i :: 0 <= i < |parts| ==> sep !in parts[i]
    ensures Split(Join(parts, sep), sep) == parts
  {
    if |parts| == 1 {
      SplitWithoutSeparator(parts[0], sep);
    } else {
      SplitJoin(parts[1..], sep);
      SplitAfterSeparator(parts[0], Join(parts[1..], sep), sep);
      assert [parts[0]] + parts[1..] == parts;
    }
  }

  /** The result of `parseId`: `{cid, aid}` with `aid` undefined when there is no ':'. */
  datatype ParsedId = ParsedId(cid: string, aid: Option<string>)

  /** `parseId(id)`: `const [cid, aid] = id.split(':')`. */
  function ParseId(id: string): (r: ParsedId)
    ensures Separator !in r.cid
    ensures r.aid.Some? ==> Separator !in r.aid.value
    ensures r.aid.None? <==> Separator !in id
    ensures r.aid.None? ==> r.cid == id
    ensures r.aid.Some? ==> r.cid + [Separator] + r.aid.value <= id
  {
    var parts := Split(id, Separator);
    JoinSplit(id, Separator);
    if |parts| > 1 then
      assert Join(parts, Separator) == parts[0] + [Separator] + Join(parts[1..], Separator);
      assert Join(parts[1..], Separator) == parts[1] || parts[1] + [Separator] <= Join(parts[1..], Separator);
      assert Separator in id by {
        assert id[|parts[0]|] == Separator;
      }
      ParsedId(parts[0], Some(parts[1]))
    else
      ParsedId(parts[0], None)
  }

  /** The name a closed action is reported under: `${customerId}:${actionId}`. */
  function ActionKey(cid: string, aid: string): string {
    cid + [Separator] + aid
  }

  /** A separator-free customer id and action id survive `ActionKey` then `ParseId`. */
  lemma ParseActionKey(cid: string, aid: string)
    requires Separator !in cid && Separator !in aid
    ensures ParseId(ActionKey(cid, aid)) == ParsedId(cid, Some(aid))
  {
    assert Join([cid, aid], Separator) == ActionKey(cid, aid);
    SplitJoin([cid, aid], Separator);
  }

  /** A separator-free customer id parses to itself with no action id. */
  lemma ParseCustomerId(cid: string)
    requires Separator !in cid
    ensures ParseId(cid) == ParsedId(cid, None)
  {
    SplitWithoutSeparator(cid, Separator);
  }

  /** Everything after a second ':' is dropped, not folded into the action id. */
  lemma ParseDropsTail(cid: string, aid: string, tail: string)
    requires Separator !in cid && Separator !in aid
    ensures ParseId(ActionKey(cid, aid) + [Separator] + tail) == ParsedId(cid, Some(aid))
  {
    var id := ActionKey(cid, aid) + [Separator] + tail;
    assert id == cid + [Separator] + (aid + [Separator] + tail);
    SplitAfterSeparator(cid, aid + [Separator] + tail, Separator);
    SplitAfterSeparator(aid, tail, Separator);
  }

  /** `text.startsWith(p)`. */
  predicate IsPrefix(p: string, text: string) {
    |p| <= |text| && text[..|p|] == p
  }

  /** `startsWith(text, options)`: some option is a prefix of `text`. */
  function StartsWith(text: string, options: seq<string>): (b: bool)
    ensures b <==> exists i :: 0 <= i < |options| && IsPrefix(options[i], text)
  {
    if options == [] then false
    else
      assert forall i :: 0 < i < |options| ==> options[i] == options[1..][i - 1];
      IsPrefix(options[0], text) || StartsWith(text, options[1..])
  }
}

=== FILE: ordered_map.dfy ===
/**
 * A JavaScript `Map`: a finite map that iterates its entries in the order
 * their keys were first inserted. `Set` on a present key replaces the value
 * in place and keeps the key's position; `Remove` drops the entry.
 */
module OrderedMap {
  import opened Wrappers

  type OMap<K, V> = seq<(K, V)>

  /** The keys in iteration order (`Array.from(m.keys())`). */
  function Keys<K, V>(m: OMap<K, V>): (ks: seq<K>)
    ensures |ks| == |m|
  {
    if m == [] then [] else [m[0].0] + Keys(m[1..])
  }

  /** The values in iteration order (`Array.from(m.values())`). */
  function Values<K, V>(m: OMap<K, V>): (vs: seq<V>)
    ensures |vs| == |m|
  {
    if m == [] then [] else [m[0].1] + Values(m[1..])
  }

  /** No key occurs twice. */
  ghost predicate Valid<K, V>(m: OMap<K, V>) {
    m == [] || (m[0].0 !in Keys(m[1..]) && Valid(m[1..]))
  }

  /** `m.has(k)`. */
  predicate Has<K(==), V>(m: OMap<K, V>, k: K) {
    k in Keys(m)
  }

  /** `m.get(k)`: the value stored under `k`, defined exactly when `m.has(k)`. */
  function Get<K(==), V>(m: OMap<K, V>, k: K): (r: Option<V>)
    ensures r.Some? <==> Has(m, k)
  {
    if m == [] then None
    else if m[0].0 == k then Some(m[0].1)
    else Get(m[1..], k)
  }

  /**
   * `m.set(k, v)`: afterwards `k` holds `v` and no other key changes; a new
   * key goes to the end, a present key keeps its position.
   */
  function Set<K(==,!new), V(!new)>(m: OMap<K, V>, k: K, v: V): (r: OMap<K, V>)
    ensures Get(r, k) == Some(v)
    ensures forall k' :: k' != k ==> Get(r, k') == Get(m, k')
    ensures Keys(r) == if Has(m, k) then Keys(m) else Keys(m) + [k]
    ensures forall x :: x in Values(r) ==> x in Values(m) || x == v
    ensures Valid(m) ==> Valid(r)
  {
    if m == [] then [(k, v)]
    else if m[0].0 == k then
      var r := [(k, v)] + m[1..];
      assert r[1..] == m[1..];
      assert Keys(r) == [k] + Keys(m[1..]) && Values(r) == [v] + Values(m[1..]);
      r
    else
      var rest := Set(m[1..], k, v);
      var r := [m[0]] + rest;
      assert r[1..] == rest;
      assert Keys(r) == [m[0].0] + Keys(rest) && Values(r) == [m[0].1] + Values(rest);
      r
  }

  /** `ks` with every occurrence of `k` dropped, the rest in their order. */
  function Without<K(==)>(ks: seq<K>, k: K): seq<K> {
    if ks == [] then [] else (if ks[0] == k then [] else [ks[0]]) + Without(ks[1..], k)
  }

  /**
   * `m.delete(k)`: afterwards `k` is absent and no other key changes;
   * the remaining keys keep their order; deleting an absent key changes
   * nothing.
   */
  function Remove<K(==,!new), V(!new)>(m: OMap<K, V>, k: K): (r: OMap<K, V>)
    ensures Get(r, k) == None
    ensures forall k' :: k' != k ==> Get(r, k') == Get(m, k')
    ensures !Has(m, k) ==> r == m
    ensures Keys(r) == Without(Keys(m), k)
    ensures forall x :: x in Values(r) ==> x in Values(m)
    ensures Valid(m) ==> Valid(r)
  {
    if m == [] then []
    else if m[0].0 == k then Remove(m[1..], k)
    else
      var r := [m[0]] + Remove(m[1..], k);
      assert r[1..] == Remove(m[1..], k);
      assert Get(r[1..], m[0].0) == Get(m[1..], m[0].0);
      r
  }
}

=== FILE: tab_map.dfy ===
/**
 * `TabMap`: the registry. One JavaScript Map sends customer and action ids
 * (strings) and tab ids (numbers) to the Customer or Action they name.
 * `get` and `has` are the Map's own (`OrderedMap.Get`, `OrderedMap.Has`).
 */
module TabMap {
  import opened Wrappers
  import opened Types
  import OM = OrderedMap
  import CustomerModel

  type Registry = OM.OMap<Key, Value>

  /** The key `k` names its value: a string key is its id, a number key its tab. */
  predicate Names(k: Key, v: Value) {
    match k
    case StrKey(s) => v.Id() == s
    case NumKey(n) => v.Tab() == n
  }

  /** Every key maps to a value whose `id` or `tab` is that key. */
  ghost predicate KeysMatch(m: Registry) {
    forall k :: OM.Get(m, k).Some? ==> Names(k, OM.Get(m, k).value)
  }

  /**
   * `set(id, tid, value)`: afterwards both keys give `value` and every other
   * key is unchanged; values already under either key are overwritten.
   */
  function Set(m: Registry, id: string, tid: TabId, value: Value): (r: Registry)
    ensures OM.Get(r, StrKey(id)) == Some(value) && OM.Get(r, NumKey(tid)) == Some(value)
    ensures forall k :: k != StrKey(id) && k != NumKey(tid) ==> OM.Get(r, k) == OM.Get(m, k)
    ensures OM.Valid(m) ==> OM.Valid(r)
  {
    OM.Set(OM.Set(m, StrKey(id), value), NumKey(tid), value)
  }

  /** `set` as its call sites use it, `set(v.id, v.tab, v)`, keeps every key naming its value. */
  lemma SetKeepsKeysMatch(m: Registry, v: Value)
    requires KeysMatch(m)
    ensures KeysMatch(Set(m, v.Id(), v.Tab(), v))
  {
    var r := Set(m, v.Id(), v.Tab(), v);
    forall k | OM.Get(r, k).Some?
      ensures Names(k, OM.Get(r, k).value)
    {
      if k != StrKey(v.Id()) && k != NumKey(v.Tab()) {
        assert OM.Get(r, k) == OM.Get(m, k);
      }
    }
  }

  /** `getAction(k)`: the value under `k` when it is an Action. */
  function GetAction(m: Registry, k: Key): (r: Option<Action>)
    ensures r.Some? <==> OM.Get(m, k).Some? && OM.Get(m, k).value.ActionValue?
    ensures r.Some? ==> OM.Get(m, k) == Some(ActionValue(r.value))
  {
    var v := OM.Get(m, k);
    if v.Some? && v.value.ActionValue? then Some(v.value.action) else None
  }

  /** `getCustomer(k)`: the value under `k` when it is a Customer; never both kinds at once. */
  function GetCustomer(m: Registry, k: Key): (r: Option<Customer>)
    ensures r.Some? <==> OM.Get(m, k).Some? && OM.Get(m, k).value.CustomerValue?
    ensures r.Some? ==> OM.Get(m, k) == Some(CustomerValue(r.value))
    ensures r.Some? ==> GetAction(m, k).None?
  {
    var v := OM.Get(m, k);
    if v.Some? && v.value.CustomerValue? then Some(v.value.customer) else None
  }

  /**
   * `delete(k)`: when `k` is present, remove the two keys of its value
   * (`value.id` and `value.tab`) and nothing else; when absent, do nothing.
   */
  function Delete(m: Registry, k: Key): (r: Registry)
    ensures OM.Get(m, k).None? ==> r == m
    ensures OM.Get(m, k).Some? ==>
              var v := OM.Get(m, k).value;
              && OM.Get(r, StrKey(v.Id())) == None
              && OM.Get(r, NumKey(v.Tab())) == None
              && forall k' :: k' != StrKey(v.Id()) && k' != NumKey(v.Tab()) ==> OM.Get(r, k') == OM.Get(m, k')
    ensures OM.Valid(m) ==> OM.Valid(r)
  {
    match OM.Get(m, k)
    case None => m
    case Some(v) => OM.Remove(OM.Remove(m, StrKey(v.Id())), NumKey(v.Tab()))
  }

  /** Deleting the same key twice is the same as deleting it once, in any registry. */
  lemma DeleteIdempotent(m: Registry, k: Key)
    ensures Delete(Delete(m, k), k) == Delete(m, k)
  {
    var once := Delete(m, k);
    if v :| OM.Get(m, k) == Some(v) {
      if OM.Get(once, k).Some? {
        assert OM.Get(once, k) == Some(v);
        var mid := OM.Remove(once, StrKey(v.Id()));
        assert mid == once;
      }
    }
  }

  /** `delete` keeps every key naming its value. */
  lemma DeleteKeepsKeysMatch(m: Registry, k: Key)
    requires KeysMatch(m)
    ensures KeysMatch(Delete(m, k))
  {
    var r := Delete(m, k);
    forall k' | OM.Get(r, k').Some?
      ensures Names(k', OM.Get(r, k').value)
    {
      assert OM.Get(r, k') == OM.Get(m, k');
    }
  }

  /** With keys naming their values, deleting any key of a value removes both of its keys. */
  lemma DeleteRemovesBothKeys(m: Registry, k: Key)
    requires KeysMatch(m)
    requires OM.Get(m, k).Some?
    ensures var v := OM.Get(m, k).value;
            && (k == StrKey(v.Id()) || k == NumKey(v.Tab()))
            && !OM.Has(Delete(m, k), k)
            && !OM.Has(Delete(m, k), StrKey(v.Id()))
            && !OM.Has(Delete(m, k), NumKey(v.Tab()))
  {
  }

  /** The tab ids among the keys, in key order (`keys`). */
  function TabKeys(ks: seq<Key>): (tids: seq<TabId>)
    ensures forall t :: t in tids <==> NumKey(t) in ks
  {
    if ks == [] then []
    else
      var rest := TabKeys(ks[1..]);
      assert forall k :: k in ks <==> k == ks[0] || k in ks[1..];
      if ks[0].NumKey? then [ks[0].n] + rest else rest
  }

  /** `keys`: the tab ids registered, in insertion order. */
  function Keys(m: Registry): (tids: seq<TabId>)
    ensures forall t :: t in tids <==> OM.Has(m, NumKey(t))
  {
    TabKeys(OM.Keys(m))
  }

  /** `keys.map(k => get(k)!)`: the values under the given tab keys. */
  function Lookup(m: Registry, tids: seq<TabId>): (vs: seq<Value>)
    requires forall t :: t in tids ==> OM.Has(m, NumKey(t))
    ensures |vs| == |tids|
    ensures forall i :: 0 <= i < |tids| ==> OM.Get(m, NumKey(tids[i])) == Some(vs[i])
  {
    if tids == [] then []
    else [OM.Get(m, NumKey(tids[0])).value] + Lookup(m, tids[1..])
  }

  /** The actions among the values, in order. */
  function ActionsIn(vs: seq<Value>): (r: seq<Action>)
    ensures forall a :: a in r <==> ActionValue(a) in vs
  {
    if vs == [] then []
    else
      var rest := ActionsIn(vs[1..]);
      assert forall v :: v in vs <==> v == vs[0] || v in vs[1..];
      if vs[0].ActionValue? then [vs[0].action] + rest else rest
  }

  /** The customers among the values, in order. */
  function CustomersIn(vs: seq<Value>): (r: seq<Customer>)
    ensures forall c :: c in r <==> CustomerValue(c) in vs
  {
    if vs == [] then []
    else
      var rest := CustomersIn(vs[1..]);
      assert forall v :: v in vs <==> v == vs[0] || v in vs[1..];
      if vs[0].CustomerValue? then [vs[0].customer] + rest else rest
  }

  /** Each value is an action or a customer, so the two filters split the values between them. */
  lemma {:induction false} KindsPartition(vs: seq<Value>)
    ensures |ActionsIn(vs)| + |CustomersIn(vs)| == |vs|
  {
    if vs != [] {
      KindsPartition(vs[1..]);
    }
  }

  /** `actions`: the Actions stored under tab keys, in key order. */
  function Actions(m: Registry): (r: seq<Action>)
    ensures forall a :: a in r <==> exists t :: OM.Get(m, NumKey(t)) == Some(ActionValue(a))
  {
    UnderTabKeys(m);
    ActionsIn(Lookup(m, Keys(m)))
  }

  /** `customers`: the Customers stored under tab keys, in key order. */
  function Customers(m: Registry): (r: seq<Customer>)
    ensures forall c :: c in r <==> exists t :: OM.Get(m, NumKey(t)) == Some(CustomerValue(c))
  {
    UnderTabKeys(m);
    CustomersIn(Lookup(m, Keys(m)))
  }

  /** The values looked up under `keys` are exactly the values stored under some tab key. */
  lemma UnderTabKeys(m: Registry)
    ensures forall v :: v in Lookup(m, Keys(m)) <==> exists t :: OM.Get(m, NumKey(t)) == Some(v)
  {
    var tids := Keys(m);
    var vs := Lookup(m, tids);
    forall v
      ensures v in vs <==> exists t :: OM.Get(m, NumKey(t)) == Some(v)
    {
      if v in vs {
        var i :| 0 <= i < |vs| && vs[i] == v;
        assert OM.Get(m, NumKey(tids[i])) == Some(v);
      }
      if exists t :: OM.Get(m, NumKey(t)) == Some(v) {
        var t :| OM.Get(m, NumKey(t)) == Some(v);
        assert t in tids;
        var i :| 0 <= i < |tids| && tids[i] == t;
        assert vs[i] == v;
      }
    }
  }

  /** With keys naming their values, an action is in `actions` exactly when its own tab holds it. */
  lemma ActionsByOwnTab(m: Registry)
    requires KeysMatch(m)
    ensures forall a :: a in Actions(m) <==> OM.Get(m, NumKey(a.tab)) == Some(ActionValue(a))
  {
    var tids := Keys(m);
    var vs := Lookup(m, tids);
    forall a: Action | OM.Get(m, NumKey(a.tab)) == Some(ActionValue(a))
      ensures a in Actions(m)
    {
      var i :| 0 <= i < |tids| && tids[i] == a.tab;
      assert vs[i] == ActionValue(a);
    }
    forall a: Action | a in Actions(m)
      ensures OM.Get(m, NumKey(a.tab)) == Some(ActionValue(a))
    {
      var i :| 0 <= i < |vs| && vs[i] == ActionValue(a);
      assert Names(NumKey(tids[i]), vs[i]);
    }
  }

  /** With keys naming their values, a customer is in `customers` exactly when its own tab holds it. */
  lemma CustomersByOwnTab(m: Registry)
    requires KeysMatch(m)
    ensures forall c :: c in Customers(m) <==> OM.Get(m, NumKey(c.tab)) == Some(CustomerValue(c))
  {
    var tids := Keys(m);
    var vs := Lookup(m, tids);
    forall c: Customer | OM.Get(m, NumKey(c.tab)) == Some(CustomerValue(c))
      ensures c in Customers(m)
    {
      var i :| 0 <= i < |tids| && tids[i] == c.tab;
      assert vs[i] == CustomerValue(c);
    }
    forall c: Customer | c in Customers(m)
      ensures OM.Get(m, NumKey(c.tab)) == Some(CustomerValue(c))
    {
      var i :| 0 <= i < |vs| && vs[i] == CustomerValue(c);
      assert Names(NumKey(tids[i]), vs[i]);
    }
  }

  /**
   * `actions` and `customers` split the values under the tab keys by kind:
   * together they have one element per tab key, and with keys naming their
   * values an action (customer) is listed exactly when its own tab holds it.
   */
  lemma ActionsCustomersPartition(m: Registry)
    ensures |Actions(m)| + |Customers(m)| == |Keys(m)|
    ensures KeysMatch(m) ==> forall a :: a in Actions(m) <==> OM.Get(m, NumKey(a.tab)) == Some(ActionValue(a))
    ensures KeysMatch(m) ==> forall c :: c in Customers(m) <==> OM.Get(m, NumKey(c.tab)) == Some(CustomerValue(c))
  {
    KindsPartition(Lookup(m, Keys(m)));
    if KeysMatch(m) {
      ActionsByOwnTab(m);
      CustomersByOwnTab(m);
    }
  }

  /** The shape `dump` reports an action in. */
  datatype ActionDump = ActionDump(id: string, window: WindowId, tab: TabId)

  /** The shape `dump` reports a customer in. */
  datatype CustomerDump = CustomerDump(id: string, tab: TabId, actions: seq<ActionDump>)

  /** One customer's entry: its id, tab, and the id, window and tab of each of its actions. */
  function DumpCustomer(c: Customer, t: CustomerModel.ActionTable): (d: CustomerDump)
    ensures d.id == c.id && d.tab == c.tab
    ensures |d.actions| == |t|
    ensures forall j :: 0 <= j < |t| ==>
              var a := OM.Values(t)[j];
              d.actions[j] == ActionDump(a.id, a.window, a.tab)
  {
    var actions := OM.Values(t);
    CustomerDump(c.id, c.tab, seq(|actions|, j requires 0 <= j < |actions| => ActionDump(actions[j].id, actions[j].window, actions[j].tab)))
  }

  /** The data `dump` builds: one entry per customer under a tab key, in key order. */
  function Dump(m: Registry, tables: CustomerModel.Tables): (data: seq<CustomerDump>)
    ensures |data| == |Customers(m)|
    ensures forall i :: 0 <= i < |data| ==>
              data[i] == DumpCustomer(Customers(m)[i], CustomerModel.TableOf(tables, Customers(m)[i]))
  {
    var cs := Customers(m);
    seq(|cs|, i requires 0 <= i < |cs| => DumpCustomer(cs[i], CustomerModel.TableOf(tables, cs[i])))
  }
}

=== FILE: types.dfy ===
/**
 * The entities of the tab bookkeeping: customers, actions, registry keys,
 * and the native commands and page notifications a handler emits.
 *
 * JavaScript objects are shared by reference. A Customer or an Action is
 * modelled here as its object identity (`ref`) together with its read-only
 * fields; the fields the source mutates (a customer's action table, an
 * action's metadata) live in tables keyed by `ref`.
 */
module Types {
  import opened Wrappers

  type TabId = int
  type WindowId = int

  /** A `Customer` object: identity, customer id and the tab showing it. */
  datatype Customer = Customer(ref: nat, id: string, tab: TabId)

  /** An `Action` object: identity, action id, owning customer, window and tab. */
  datatype Action = Action(ref: nat, id: string, customer: Customer, window: WindowId, tab: TabId)

  /** A registry value: `Customer | Action`, tagged instead of tested with `instanceof`. */
  datatype Value = CustomerValue(customer: Customer) | ActionValue(action: Action)
  {
    /** The `id` field both kinds share. */
    function Id(): string {
      match this
      case CustomerValue(c) => c.id
      case ActionValue(a) => a.id
    }

    /** The `tab` field both kinds share. */
    function Tab(): TabId {
      match this
      case CustomerValue(c) => c.tab
      case ActionValue(a) => a.tab
    }
  }

  /** A registry key: `string | number`. A JavaScript Map keeps "10" and 10 apart. */
  datatype Key = StrKey(s: string) | NumKey(n: int)

  /** The opaque payload of a close request, as a record of named fields. */
  type Metadata = map<string, string>

  /** What the browser reports about a tab: its id and its window. */
  datatype Tab = Tab(id: TabId, windowId: WindowId)

  /** The notifications sent to a customer page (`spe:select`, `spe:closed`). */
  datatype Message =
    | Select(actionId: string, taskId: string)
    | Closed(data: map<string, string>)

  /** The native calls the bookkeeping issues, in the order it issues them. */
  datatype Command =
    | Activate(tab: TabId)                                   // tabs.update(tab, {active: true})
    | FocusWindow(window: WindowId)                          // windows.update(w, {focused: true})
    | MinimizeWindow(window: WindowId)                       // windows.update(w, {state: 'minimized'})
    | MaximizeWindow(window: WindowId)                       // windows.update(w, {state: 'maximized'})
    | RemoveTabs(tabs: seq<TabId>)                           // tabs.remove(tabs)
    | CreateTab(url: Option<string>, window: WindowId)       // tabs.create({url, windowId})
    | CreateWindow(url: Option<string>, left: int, width: int, height: int)  // windows.create
    | SendMessage(tab: TabId, message: Message)              // tabs.sendMessage(tab, message)

  /** JavaScript truthiness of an optional string: defined and not empty. */
  predicate Truthy(s: Option<string>) {
    s.Some? && s.value != ""
  }

  /** JavaScript truthiness of an optional number: defined and not zero. */
  predicate NonZero(n: Option<int>) {
    n.Some? && n.value != 0
  }
}

=== FILE: wrappers.dfy ===
/** The optional value used wherever the source has `T | undefined`. */
module Wrappers {

  datatype Option<+T> = None | Some(value: T) {

    /** The value held, or `default` when there is none. */
    function GetOr(default: T): T {
      match this
      case Some(v) => v
      case None => default
    }
  }
}
